=== FILE: README.md ===
# eSkool backend: account, purchase, notification and layout logic in Dafny

This project models the decision logic of the eSkool learning-platform
backend (an Express and Mongoose service) and proves properties of it.

The modelled parts:

- the account lifecycle: `registerUser`, `activateUser`, `loginUser` and
  `logoutUser`;
- the user schema: its validators, its defaults, its pre-save hashing hook
  and its instance methods. The older duplicate schema `models/user.ts` is
  covered too;
- the shaping of the six-digit verification code and its token;
- the cookie lifetimes;
- the error-normalising middleware;
- the course schema and the purchase transition `createOrder`;
- the notification status update and listing;
- one-layout-per-type creation in `createLayout`.

Every collection (users, courses, orders, notifications, layouts) is an
immutable sequence in one `Store.Store` record:

- a document's id is its position;
- `create` appends and `save` replaces a position;
- `findOne` returns the first match.

Every handler is a pure function from a store and a request to an
`Outcome`: the store afterwards and a reply. The reply is either a status
with a body that the handler sends, or a failure `(status, message)` that
the handler passes to `next`.

A failure is never answered. The only error middleware `app.ts` installs
(`app.use(errorHandler)`, line 47) is `middleware/error.ts`. It settles the
error's status and message but neither writes a response nor calls `next`,
so the client gets no reply and the request stays open. The status and
message of a failure in the rows below are the error's `statusCode` and
`message`, not a reply the client receives.

bcrypt and jsonwebtoken are symbolic (`Crypto`, `Jwt`):

- A digest records what was hashed. Comparing a candidate succeeds exactly
  against a digest of that same candidate. bcrypt's limit of 72 bytes of
  input is not modelled (see Left out).
- A token records its payload, its secret and its expiry. Verifying with
  the signing secret before the expiry gives the payload back. The other
  cases fail with the library's messages, in the library's order of checks.

Files, one module each:

| file | module | models |
|---|---|---|
| common.dfy | Common | options, results, replies |
| crypto.dfy | Crypto | bcrypt |
| jwt.dfy | Jwt | jsonwebtoken |
| email_pattern.dfy | EmailPattern | the e-mail regular expression as character classes |
| user_model.dfy | UserSchema | `models/user-model.ts` |
| legacy_user_model.dfy | LegacyUserSchema | `models/user.ts` |
| generate_token.dfy | VerificationToken | `utils/generate-token.ts` |
| token_config.dfy | TokenConfig | `utils/token-config.ts` |
| error_middleware.dfy | ErrorMiddleware | `middleware/error.ts` |
| course_model.dfy | CourseSchema | `models/course-model.ts` |
| store.dfy | Store | the collections and a handler's outcome |
| user_controller.dfy | UserController | `controllers/user-controller.ts` |
| order_controller.dfy | OrderController | `controllers/order-controller.ts` |
| notification_controller.dfy | NotificationController | `controllers/notification-controller.ts` |
| layout_controller.dfy | LayoutController | `controllers/layout-controller.ts` |

Two behaviours of the code as written shape the account model.

The activation e-mail is never in the token:

- `registerUser` calls `generateVerificationToken(userId, email)`.
- The helper takes only `userId` and signs `{ userId, verificationCode }`.
- `activateUser` then reads `email` from the verified payload and looks the
  user up by it.

The model keeps the payload's `email` optional, and the generator leaves it
out. `findOne({ email: undefined })` then carries a filter that constrains
nothing; Mongoose documents such a query as behaving like `findOne({})`,
which returns an arbitrary document (in practice the first one stored). The
document picked is the parameter `unfiltered`, and `None` there is the
reading in which the query matches no one. Activation with a registration's
token therefore verifies whichever user that lookup returns, or nobody
(`UserController.GeneratedTokenActivatesUnfiltered`). When it returns the
first stored user, a second registrant's token activates the first user
and leaves the registrant unverified; this is recorded under Findings. The
same empty filter makes a registration without an address on a non-empty
store fail as "User already exists with this email address".

The pre-save hook as written hashes the document's password on every save,
modified or not; on an unmodified password it does so after `next()` has
already let that save go out. This is recorded under Findings. The two handlers that save a user,
`activateUser` and `createOrder`, load it without its password (the schema
marks the path `select: false`). So they never re-hash a stored digest, and
the stored password survives their saves unchanged. The model's saves keep
the password as it is, which is what the corrected hook does for an
unmodified password.

## Model

| member | source | states |
|---|---|---|
| Crypto.CompareOnlyOriginal | models/user-model.ts:74-78 | comparing a candidate against the digest of a password succeeds exactly when the candidate is that password |
| Crypto.Hash | models/user-model.ts:57 | a digest never equals what was hashed, and a digest of a plain password compares equal to that password |
| Crypto.Compare | models/user-model.ts:74-78 | a candidate compares equal to a stored value exactly when the stored value is a digest of that candidate under some salt, never the candidate in plain text |
| Crypto.CompareHash | models/user-model.ts:74-78 | a password compares equal to its own digest, whatever the salt |
| Crypto.RehashBreaksCompare | models/user-model.ts:57 | a digest of a digest never compares equal to the original password |
| Jwt.Sign | utils/generate-token.ts:17-21 | signing succeeds exactly when the secret is a non-empty string; otherwise it throws "secretOrPrivateKey must have a value"; the token keeps the payload and the secret, and has an expiry exactly when one is given, namely the signing time plus `expiresIn` |
| Jwt.Verify | controllers/user-controller.ts:81-85 | verification succeeds exactly for a signed token presented with its own secret before its expiry, and then returns its payload unchanged |
| Jwt.SignVerifyRoundTrip | utils/generate-token.ts:17-21 | verifying a freshly signed token under the same secret before its expiry gives back the signed payload |
| Jwt.VerifyRejects | controllers/user-controller.ts:81-85 | a signed token under the wrong secret fails with "invalid signature", and under the right secret after its expiry with "jwt expired" |
| EmailPattern.IndexOf | models/user-model.ts:6 | the result is the first position of the character, or none when the character does not occur |
| EmailPattern.LastIndexOf | models/user-model.ts:6 | the result is the last position of the character, or none when the character does not occur |
| EmailPattern.Test | models/user-model.ts:33-36 | the validator accepts a string exactly when the pattern matches it at some split into local part, domain and top-level part |
| EmailPattern.MatchesAtFirstAtLastDot | models/user-model.ts:6 | whenever the pattern matches, it matches with the '@' at its first occurrence and the separating '.' at the last '.' of the string |
| EmailPattern.SplitIsUnique | models/user-model.ts:6 | in any accepted split, the '@' is the only '@' of the string and the separating '.' is its last '.' |
| EmailPattern.AcceptedHasOneAt | models/user-model.ts:33-36 | an address the validator accepts has exactly one '@', preceded by a non-empty local part over `[A-Za-z0-9._-]` |
| EmailPattern.AcceptedEndsInLetters | models/user-model.ts:6 | an accepted address ends in '.' followed by at least two ASCII letters |
| UserSchema.PreSaveIntended | models/user-model.ts:53-59 | the corrected hook changes nothing but the password; an unmodified password is kept, so every password that matched still matches; a modified plain password is stored as a digest that only that password matches |
| UserSchema.Create | models/user-model.ts:24-50 | creation succeeds exactly when the name is present, the address is present and matches the pattern, and the password is at least six UTF-16 code units long; the user keeps name and address, stores a digest its password compares against, has role "User", is unverified, and owns no courses |
| UserSchema.Utf16Length | models/user-model.ts:41 | the length `minlength` compares lies between the number of characters and twice that, and equals the number of characters exactly when none lies outside the Basic Multilingual Plane |
| UserSchema.AstralPasswordMeetsMinimum | models/user-model.ts:41 | a password of three characters outside the Basic Multilingual Plane counts six code units and passes the minimum |
| UserSchema.PreSave | models/user-model.ts:53-59 | the hook as written changes only the password, always to a different value, and afterwards a candidate matches exactly when the old value was that candidate in plain text |
| UserSchema.ComparePassword | models/user-model.ts:74-78 | the check succeeds exactly when the loaded password is a digest of the candidate |
| UserSchema.SignAccessToken | models/user-model.ts:62-66 | signing succeeds exactly when `ACCESS_TOKEN` is set and non-empty, and otherwise throws the library's missing-key error; the token carries `{ id }`, the secret, and no expiry |
| UserSchema.SignRefreshToken | models/user-model.ts:68-72 | signing succeeds exactly when `REFRESH_TOKEN` is set and non-empty, and otherwise throws the library's missing-key error; the token carries `{ id }`, the secret, and no expiry |
| UserSchema.ShortPasswordRejected | models/user-model.ts:41 | a password shorter than six UTF-16 code units makes creation fail, with an error on the password path |
| UserSchema.PreSaveAlwaysHashes | models/user-model.ts:53-59 | the hook as written hashes whether or not the password was modified, and changes nothing but the password |
| UserSchema.DoubleHashBreaksLogin | models/user-model.ts:53-59 | with the hook as written, a document whose password was not modified is left holding a digest of its digest, which the user's own password no longer matches |
| UserSchema.IntendedSavesKeepLogin | models/user-model.ts:53-59 | with the corrected hook, any number of saves that leave the password unmodified keep it matching |
| UserSchema.CreatedUserMatchesPassword | models/user-model.ts:74-78 | a created user's password check succeeds for exactly the password it was created with |
| UserSchema.TokenMethods | models/user-model.ts:62-72 | access and refresh tokens carry only the id, set no expiry, verify under their own secrets, and fail under the other secret when the two differ |
| UserSchema.TokenMethodsNeedSecrets | models/user-model.ts:62-66 | with `ACCESS_TOKEN` unset or empty, signing an access token throws rather than signing |
| LegacyUserSchema.PasswordMinimum | models/user.ts:38 | a password shorter than six UTF-16 code units never yields a user |
| LegacyUserSchema.Defaults | models/user.ts:42-43 | a created user has role "User" and is not verified |
| LegacyUserSchema.SavedTwiceHoldsDoubleDigest | models/user.ts:49-55 | a document saved twice holds a digest of a digest, and its password no longer matches |
| LegacyUserSchema.CompareAgainstHash | models/user.ts:57-61 | the password check succeeds for `p` against a stored `hash(p)` |
| VerificationToken.DecimalRoundTrip | utils/generate-token.ts:14-15 | the decimal text of a number is all digits and reads back as the number |
| VerificationToken.DecimalLength | utils/generate-token.ts:14-16 | a number in `[10^(k-1), 10^k)` has exactly `k` decimal digits |
| VerificationToken.NoLeadingZero | utils/generate-token.ts:14-16 | the decimal text of a positive number does not start with '0' |
| VerificationToken.CodeOf | utils/generate-token.ts:14-16 | the code has exactly six characters, all digits, the first not '0'; it reads back as the drawn integer, or 100000 for the largest draw; its value lies in [100000, 999999] |
| VerificationToken.GenerateVerificationToken | utils/generate-token.ts:11-24 | the helper succeeds exactly when `JWT_SECRET` is set; the token carries `{ userId, verificationCode }` with no address, the returned code, `JWT_SECRET`, and an expiry five minutes after issue |
| VerificationToken.IssuedCodeRoundTrip | utils/generate-token.ts:17-23 | verifying the issued token under `JWT_SECRET` gives back `{ userId, verificationCode }` with the returned code within five minutes, and "jwt expired" afterwards |
| TokenConfig.AccessTokenOptions | utils/token-config.ts:11-35 | the access cookie lives the configured minutes (default 300) in milliseconds, expires that long after load time, is httpOnly and lax, and is secure only in production |
| TokenConfig.RefreshTokenOptions | utils/token-config.ts:15-32 | the refresh cookie lives the configured days (default 1200) in milliseconds, expires that long after load time, is httpOnly and lax, and is never secure |
| TokenConfig.RefreshOutlivesAccessIff | utils/token-config.ts:11-32 | the refresh cookie outlives the access cookie exactly when its lifetime in minutes exceeds the access lifetime |
| TokenConfig.DefaultsOrderLifetimes | utils/token-config.ts:11-32 | with both variables unset the lifetimes are 18000000 ms and 103680000000 ms, so refresh outlives access |
| TokenConfig.OptionsDifferOnlyInLifetimeAndSecure | utils/token-config.ts:21-35 | the two option records agree on every field except lifetime, expiry and `secure` |
| ErrorMiddleware.OrdinaryErrorKeepsOrDefaults | middleware/error.ts:10-11 | an error that is neither a cast nor a duplicate-key error keeps its status and message; a missing status becomes 500 and a missing message "Internal Server Error" |
| ErrorMiddleware.Normalise | middleware/error.ts:4-28 | the handler settles on a non-zero status and a non-empty message, which it only records on the error: it sends no reply and does not call `next`; a cast or duplicate-key error becomes a 400 naming its path; any other error keeps its name, code and path, keeps a status and message it had, and defaults the missing ones to 500 and "Internal Server Error" |
| ErrorMiddleware.CastErrorBecomes400 | middleware/error.ts:14-17 | a cast error becomes 400 "Resource not found. Invalid <path>" |
| ErrorMiddleware.DuplicateKeyBecomes400 | middleware/error.ts:19-22 | an error with code 11000 becomes 400 with the same message shape |
| ErrorMiddleware.NormaliseIdempotent | middleware/error.ts:4-28 | passing an already normalised error through the handler again changes neither status nor message |
| CourseSchema.MissingFields | models/course-model.ts:79-97 | a path is reported missing exactly when it is one of the required paths and its validator fails, and the paths appear in schema order, each once |
| CourseSchema.CreateCourse | models/course-model.ts:79-112 | creation succeeds exactly when every required string is non-empty and both prices are given; the course keeps the given fields, an absent `tags` list becomes `[]`, `ratings` and `purchased` default to 0, and each review keeps its user and comment with `rating` defaulting to 0 |
| CourseSchema.NoneMissingIff | models/course-model.ts:79-97 | no required path is reported missing exactly when every required field is present |
| CourseSchema.TagsDefaultToEmpty | models/course-model.ts:95 | a course posted without `tags` is still created, with an empty list, because the implicit array default satisfies `required` |
| CourseSchema.NewCourseCountsStartAtZero | models/course-model.ts:102-109 | a course created without counters starts with `ratings` 0 and `purchased` 0 |
| CourseSchema.MissingRequiredFails | models/course-model.ts:81-97 | a course whose validator fails on any required path reports that path missing and is not created |
| CourseSchema.ThumbnailOptional | models/course-model.ts:85-94 | a course with an empty thumbnail is created whenever the required fields are present |
| UserController.FindByEmail | controllers/user-controller.ts:28 | a defined address finds the first user holding it, and none means no user holds it; an undefined address gives whatever stored document the unconstrained query returns, or none |
| UserController.FirstWithEmail | controllers/user-controller.ts:28 | the result is the first position at or after the start holding the address; none means no position holds it |
| UserController.Register | controllers/user-controller.ts:22-64 | registration replies 201 with "Please check your email: <address> to activate your account" exactly when the lookup by the address finds no user, the user validates, `JWT_SECRET` is set and the mail is delivered; it stores a new user exactly when that lookup finds none and the user validates, keeping every existing one; the new user is unverified and holds the request's address and a digest of its password; a known address fails with "User already exists with this email address" and nothing is stored or mailed; a validation error fails with its message and nothing is stored; a missing `JWT_SECRET` gives the signing library's message and a failed mail the mailer's message, each with the user kept; every failure is 400 |
| UserController.RegisterDuplicateEmail | controllers/user-controller.ts:28-34 | an address already registered fails with 400 "User already exists with this email address", and nothing is stored or mailed |
| UserController.RegisterSuccess | controllers/user-controller.ts:36-54 | a successful registration adds one unverified user, mails the code to its address, and replies with the token, which carries the mailed code and the new id but no address |
| UserController.RegisterMailFailureKeepsUser | controllers/user-controller.ts:36-58 | when mailing fails, the reply is 400 with the mailer's message, yet the created user stays stored |
| UserController.RegisterSameEmailTwice | controllers/user-controller.ts:28-36 | after a registration that stored a user, the same address is refused, and exactly one user holds it |
| UserController.RegisterWithoutEmail | controllers/user-controller.ts:26-36 | a request without an address stores and mails nothing and fails with 400; when the unconstrained lookup returns a stored user, it fails as "User already exists with this email address" |
| UserController.Activate | controllers/user-controller.ts:70-114 | activation succeeds exactly when the token verifies, its code equals the request's code, and the lookup by the token's address finds a user (for a token without an address, the one the unconstrained query returns); it then verifies that user only and replies 201 with that user's id, name and address; a token that fails verification gives 400 with the library's message, a different code 400 "Invalid Activation Code", and an address no user holds 404 "User not found"; a failure changes nothing |
| UserController.ActivateWrongCode | controllers/user-controller.ts:88-90 | a code different from the token's code fails with 400 "Invalid Activation Code", and nothing changes |
| UserController.ActivateBadToken | controllers/user-controller.ts:81-85 | a token signed under another secret fails with 400 "invalid signature", and an expired one with 400 "jwt expired", whatever the code, and nothing changes |
| UserController.ActivateMatchingCode | controllers/user-controller.ts:92-104 | a matching code on a token naming a stored address verifies the first user with that address and changes no other user |
| UserController.ActivateIdempotent | controllers/user-controller.ts:92-104 | repeating an activation leaves the store as the first call left it |
| UserController.GeneratedTokenActivatesUnfiltered | controllers/user-controller.ts:81-104 | the registration token with the mailed code, within five minutes, verifies exactly the user the unconstrained query returns and replies with that user's id, name and address, or fails with 404 "User not found" when it returns none; afterwards it fails with "jwt expired" |
| UserController.GeneratedTokenActivatesFirstUser | controllers/user-controller.ts:91-104 | when the unconstrained query returns the first stored document, a registration on a store that already held a user hands out a token that activates that earlier user, whose address differs, and leaves the registrant unverified |
| UserController.IntendedTokenActivatesRegistrant | controllers/user-controller.ts:91-104 | with a token that carries the address, the mailed code within five minutes activates exactly the user just registered, whatever the unconstrained query returns |
| VerificationToken.GenerateVerificationTokenWithEmail | utils/generate-token.ts:11-24 | the helper with the address its caller passes succeeds exactly when `JWT_SECRET` is set, and its token is the one the helper as written signs with the address added to the payload |
| UserController.Login | controllers/user-controller.ts:121-152 | login never changes the store; it replies 200 exactly when both fields are non-empty, a user holds the address, the password matches that first user, and the user is verified; the reply then names that user; every failure is 401 |
| UserController.LoginMissingFields | controllers/user-controller.ts:125-127 | a missing email or password fails with 401 whatever users are stored |
| UserController.LoginUniformInvalidCredentials | controllers/user-controller.ts:128-137 | an unknown address and a wrong password give the same 401 "Invalid Credentials" |
| UserController.LoginUnverifiedWrongPassword | controllers/user-controller.ts:134-140 | an unverified user with a wrong password is told "Invalid Credentials", not that the account is unverified |
| UserController.LoginUnverifiedRefused | controllers/user-controller.ts:138-140 | the right password of an unverified user fails with 401 "Please verify your account", not with "Invalid Credentials" |
| UserController.LoginBeforeActivation | controllers/user-controller.ts:138-140 | right after registering, logging in with the registered password fails with "Please verify your account" |
| UserController.Logout | controllers/user-controller.ts:154-169 | logout always replies 200 "Logged out successfully", clears `jwt`, `access_token` and `refresh_token` with an empty value and maxAge 1, and changes no collection |
| OrderController.CreateOrder | controllers/order-controller.ts:10-67 | an order succeeds exactly when the course exists and the requester, if found, does not own it; a refusal changes nothing and is 400 "You have already purchased this course" for an owned course and 404 "Course not found" otherwise; a 201 reply holds the order `{ courseId, userId, payment_info }`, records it with one "New Order" notification, appends the course to the requester, changes no other user, and changes no course but the ordered one |
| OrderController.CountPurchase | controllers/order-controller.ts:59 | the purchase counter is the only field that may change; it grows by exactly one when it was non-zero and stays put when it was 0 |
| OrderController.AlreadyPurchasedRefused | controllers/order-controller.ts:15-22 | a course the requester already owns fails with 400 "You have already purchased this course", and nothing changes |
| OrderController.UnknownCourseRefused | controllers/order-controller.ts:24-27 | an unknown course fails with 404 "Course not found", and nothing changes |
| OrderController.OrderAddsCourseOnce | controllers/order-controller.ts:28-56 | a successful order appends the course once to the requester, who did not own it, changes no other user, and adds one order and one "New Order" notification |
| OrderController.RepeatOrderRefused | controllers/order-controller.ts:15-50 | repeating a successful order for the same requester and course is refused as already purchased |
| OrderController.PurchasedStaysZero | controllers/order-controller.ts:59 | a purchase counter at 0, the default, stays 0 after any sequence of orders |
| OrderController.PositiveCounterCounts | controllers/order-controller.ts:59 | a positive purchase counter grows by one exactly when an order for that course succeeds |
| NotificationController.InsertByNewest | controllers/notification-controller.ts:11-13 | inserting into a newest-first list keeps it newest first and adds exactly the new notification |
| NotificationController.SortNewestFirst | controllers/notification-controller.ts:11-13 | the result holds the same notifications, sorted by creation time, newest first |
| NotificationController.GetNotifications | controllers/notification-controller.ts:8-23 | the listing replies 200 with every notification, newest first, and changes nothing |
| NotificationController.UpdateNotificationStatus | controllers/notification-controller.ts:24-48 | an unknown id fails with 404 "Notification not found" and nothing changes; otherwise the target is marked and every notification is returned newest first |
| NotificationController.MarkRead | controllers/notification-controller.ts:31-33 | only the status may change; it is empty afterwards exactly when it was empty before, and a non-empty status becomes "read" |
| NotificationController.UpdateTouchesOnlyTarget | controllers/notification-controller.ts:31-35 | only the target changes: a non-empty status becomes "read", an empty one stays empty, and every other notification and collection is untouched |
| NotificationController.UpdateIdempotent | controllers/notification-controller.ts:31-38 | updating twice gives the same store and reply as updating once |
| LayoutController.CreateLayout | controllers/layout-controller.ts:6-68 | layout creation adds at most one layout, only of a type not yet stored, and changes no other collection; a stored type fails with 400 "<type> already exist"; a failed banner upload gives 500 with the upload's message and a missing FAQ or categories list 500 with the message of mapping over `undefined`; a failure changes nothing; success replies 200 "Layout type <type> created successfully" |
| LayoutController.ExistingTypeRefused | controllers/layout-controller.ts:10-13 | a type that already has a layout fails with 400 "<type> already exist", and nothing changes |
| LayoutController.CreatePreservesOnePerType | controllers/layout-controller.ts:10-56 | if no two layouts share a type before a call, none do after it |
| LayoutController.FaqItemsProjected | controllers/layout-controller.ts:32-43 | an FAQ layout stores the request's items as question and answer, in the same number and order |
| LayoutController.CategoryItemsProjected | controllers/layout-controller.ts:44-57 | a categories layout stores the request's items as titles, in the same number and order |
| LayoutController.UnknownTypeReportsSuccess | controllers/layout-controller.ts:14-62 | an unrecognised type stores nothing yet replies with success |
| LayoutController.BannerStoresUpload | controllers/layout-controller.ts:14-30 | a banner layout stores the request's title and subtitle and the image the upload returned |

## Left out

- Database I/O, failures and asynchrony: each handler runs atomically on
  the in-memory store, and a failing database call is not modelled. So the
  `catch` branches that turn a thrown database error into 400 or 500 are
  not modelled. The ones reached by modelled failures are: validation,
  signing, verification, mail, upload, and a missing layout list.
- Document ids: a malformed id that Mongoose cannot cast is not modelled.
  Ids are positions, and course ownership is a list of course ids. The
  casting of a pushed id into the `courses` subdocument array is not
  modelled.
- `generateToken` and `sendToken`: the controller imports them, but
  `utils/generate-token.ts` does not define them. The model takes them to
  return normally and leaves out the cookies and session they write. The
  same holds for `utils/error-handler.ts`: an `ErrorHandler` is taken to
  be named "Error" and to carry no code or path.
- UserController.FindByEmail: which document `findOne({ email: undefined })`
  returns is a parameter. Mongoose documents a filter whose only key is
  `undefined` as the empty filter, which returns an arbitrary document; the
  model does not say which one, and also admits the reading in which none
  is returned.
- External services: the mailer, the image upload and the clock are
  parameters. `Math.random()` together with `toFixed()` is the integer
  draw in [100000, 1000000] that the rounding can produce. Float rounding
  itself is not modelled.
- Environment variables: `parseInt` of a set variable is taken to give a
  non-negative integer, so an unparsable value (`NaN`) is not modelled.
  `Date.now()` at load time is a parameter.
- Prices and ratings are integers, not JavaScript numbers.
- CourseSchema.CreateCourse: an explicit `null` for `tags` is not told
  apart from an absent list; both take the implicit empty-array default.
- The course content sections (`courseData`) carry no logic and are not
  modelled.
- Order and notification schemas: `models/order-model.ts` and
  `models/notification-model.ts` are not part of this model. The default
  notification status is the parameter `defaultStatus`. `createOrder` does
  not await `newOrder`; the model treats the two as one step.
- `getAllOrders` only delegates to a service that writes the response, so
  it is not modelled. The placeholder handler `controller` of
  `controllers/notification-controller.ts` always replies 200 with empty
  data, and is not modelled either.
- Validation messages: the model reproduces them only as far as the
  handlers pass them on, as `"<Model> validation failed: path: message, …"`.
- `models/user.ts` is textually the same schema as
  `models/user-model.ts` without the token methods, so it reuses
  `UserSchema`. Both therefore accept exactly the same addresses.
- NotificationController.SortNewestFirst: the database does not say how it
  orders notifications created at the same time. The contract promises
  only newest-first order and the same contents, not a particular order
  among ties.
- Crypto.CompareOnlyOriginal: bcrypt reads only the first 72 bytes of the
  UTF-8 encoding of its input, so two passwords that agree on those bytes
  share every digest. The symbolic digest keeps the whole text, so this
  lemma is stronger than the library for longer passwords.
- Crypto.Compare: the same 72-byte limit is not modelled.
- UserSchema.CreatedUserMatchesPassword: the same 72-byte limit is not
  modelled; with it, any longer candidate sharing the first 72 bytes would
  also match.
- UserSchema.ComparePassword: the same 72-byte limit is not modelled.
- UserController.Login: the same 72-byte limit is not modelled.
- UserController.Activate: the user is loaded without its password, so the
  hook as written calls `bcrypt.hash` on `undefined`, which rejects. The
  hook has already called `next()` before that `await`, so the rejection
  does not hold the save back. The model takes the save to succeed with
  the stored password untouched, and does not model what becomes of the
  rejected promise.
- OrderController.CreateOrder: the same unloaded password and the same
  rejected hash on `await user?.save()` are not modelled.
- UserSchema.PreSave: the result is the document's state after the hook,
  not the value the save that ran the hook writes. On an unmodified
  password `next()` lets that save go out before the hash, so it writes
  the old digest; only a later save of the same document writes the
  re-hashed value. The timing of the save against the hook is not
  modelled.
- ErrorMiddleware.OrdinaryErrorKeepsOrDefaults: a status given as a
  non-number is not modelled; statuses are natural numbers, and 0 counts
  as missing.

## Findings

| source | as written | input that shows it | evidently intended | confidence | as-written member | corrected member |
|---|---|---|---|---|---|---|
| models/user-model.ts:53-59 | `next()` on an unmodified password is not followed by `return`, so the hook goes on to hash the stored digest | a document that holds its password (the one `create` returns, or one loaded with `select('+password')`) saved again after changing another field, such as `isVerified`; the document's password becomes a digest of the digest after its save has gone out unchanged, and a later save of that document stores the re-hashed value, which the user's own password no longer matches | hash only when the password was modified | medium (not executed) | UserSchema.DoubleHashBreaksLogin | UserSchema.PreSaveIntended |
| controllers/user-controller.ts:91-95 | `generateVerificationToken` ignores the address passed to it, so the token has no `email`, and `findOne({ email: undefined })` constrains nothing | a store already holding user A; register B, then activate with B's token and the mailed code; the unconstrained query returns A first, so A is verified and A's name and address are returned while B stays unverified | the token carries the address and activation finds the registrant | medium (not executed) | UserController.GeneratedTokenActivatesFirstUser | UserController.IntendedTokenActivatesRegistrant |
| models/user.ts:49-55 | the same hook, with the same missing `return` | the document `create` returned for password `p`, saved once more without touching the password | hash only when the password was modified | medium (not executed) | LegacyUserSchema.SavedTwiceHoldsDoubleDigest | UserSchema.IntendedSavesKeepLogin |

=== FILE: common.dfy ===
/** Shared vocabulary of the model: optional values, results, the error a
    handler passes to `next`, and the reply a handler gives its client. */
module Common {

  /** A JavaScript value that may be `undefined`. */
  datatype Option<+T> = None | Some(value: T) {

    /** The value, or `default` when it is undefined (the `x || default` idiom
        on values whose only falsy form is `undefined`). */
    function GetOr(default: T): T {
      match this
      case Some(v) => v
      case None => default
    }
  }

  /** The outcome of a library call that either returns or throws a message. */
  datatype Result<+T, +E> = Ok(value: T) | Err(error: E)

  /** An `ErrorHandler(message, statusCode)` as the handlers hand it to `next`. */
  datatype ApiError = ApiError(status: nat, message: string)

  /** What a handler does with its response: it either writes a status and a
      JSON body, or forwards an error to the error middleware. */
  datatype Reply<+B> = Respond(status: nat, body: B) | Fail(error: ApiError)

  /** A reference to an image held by the asset host. */
  datatype Asset = Asset(publicId: string, url: string)

  /** An ASCII letter, the class `[a-zA-Z]`. */
  predicate IsLetter(c: char) {
    ('a' <= c <= 'z') || ('A' <= c <= 'Z')
  }

  /** A decimal digit, the class `[0-9]`. */
  predicate IsDigit(c: char) {
    '0' <= c <= '9'
  }

  /** JavaScript truthiness of a string that may be undefined: `undefined`
      and `''` are falsy, every other string is truthy. */
  predicate Truthy(s: Option<string>) {
    s.Some? && s.value != ""
  }

  /** The error reply `next(new ErrorHandler(message, status))`. */
  function Failure<B>(status: nat, message: string): Reply<B> {
    Fail(ApiError(status, message))
  }
}

=== FILE: course_model.dfy ===
/** The course schema of `models/course-model.ts`: the course and review
    records, the required fields, and the defaults `create` applies.

    Prices are JavaScript numbers; the model keeps them as integers. The
    course content sections (`courseData`, with their links and questions)
    carry no defaults or validators and are not modelled. */
module CourseSchema {
  import opened Common

  /** `thumbnail`: both fields optional. */
  datatype Thumbnail = Thumbnail(publicId: Option<string>, url: Option<string>)

  datatype Review = Review(user: Option<nat>, rating: int, comment: Option<string>)

  datatype Course = Course(
    name: string,
    description: string,
    price: int,
    estimatedPrice: int,
    thumbnail: Thumbnail,
    tags: seq<string>,
    level: string,
    demoUrl: string,
    benefits: seq<string>,
    prerequisites: seq<string>,
    reviews: seq<Review>,
    ratings: int,
    purchased: int)

  /** A review as given to `create`; `rating` may be absent. */
  datatype ReviewInput = ReviewInput(user: Option<nat>, rating: Option<int>, comment: Option<string>)

  /** A course as given to `create`, each field possibly absent. */
  datatype CourseInput = CourseInput(
    name: Option<string>,
    description: Option<string>,
    price: Option<int>,
    estimatedPrice: Option<int>,
    thumbnail: Thumbnail,
    tags: Option<seq<string>>,
    level: Option<string>,
    demoUrl: Option<string>,
    benefits: seq<string>,
    prerequisites: seq<string>,
    reviews: seq<ReviewInput>,
    ratings: Option<int>,
    purchased: Option<int>)

  /** `rating: { type: Number, default: 0 }`. */
  function NewReview(r: ReviewInput): (v: Review)
    ensures v.rating == (if r.rating.Some? then r.rating.value else 0)
    ensures v.user == r.user && v.comment == r.comment
  {
    Review(r.user, r.rating.GetOr(0), r.comment)
  }

  /** The course's `reviews` array, each element cast by the review schema. */
  function NewReviews(rs: seq<ReviewInput>): (vs: seq<Review>)
    ensures |vs| == |rs|
    ensures forall k :: 0 <= k < |rs| ==> vs[k] == NewReview(rs[k])
  {
    seq(|rs|, k requires 0 <= k < |rs| => NewReview(rs[k]))
  }

  /** The paths marked `required`, in schema order. */
  const RequiredOrder: seq<string> := ["name", "description", "price", "estimatedPrice", "tags", "level", "demoUrl"]

  const RequiredPaths: set<string> := {"name", "description", "price", "estimatedPrice", "tags", "level", "demoUrl"}

  /** The position of a required path in the schema. */
  function Rank(path: string): (k: nat)
    ensures path in RequiredPaths ==> k < |RequiredOrder| && RequiredOrder[k] == path
  {
    if path == "name" then 0
    else if path == "description" then 1
    else if path == "price" then 2
    else if path == "estimatedPrice" then 3
    else if path == "tags" then 4
    else if path == "level" then 5
    else 6
  }

  /** The `required` validator of `path` fails on `c`: a string when
      undefined or empty, a number when undefined. An array is never absent:
      Mongoose gives it the implicit default `[]`, which `required` accepts. */
  predicate Absent(c: CourseInput, path: string) {
    match path
    case "name" => !Truthy(c.name)
    case "description" => !Truthy(c.description)
    case "price" => c.price.None?
    case "estimatedPrice" => c.estimatedPrice.None?
    case "level" => !Truthy(c.level)
    case "demoUrl" => !Truthy(c.demoUrl)
    case _ => false
  }

  /** The paths of `paths` whose validator fails on `c`, in the order of
      `paths`. */
  function AbsentAmong(c: CourseInput, paths: seq<string>): (r: seq<string>)
    requires forall i, j :: 0 <= i < j < |paths| ==> Rank(paths[i]) < Rank(paths[j])
    ensures forall p :: p in r <==> p in paths && Absent(c, p)
    ensures forall i, j :: 0 <= i < j < |r| ==> Rank(r[i]) < Rank(r[j])
    ensures forall i :: 0 <= i < |r| ==> |paths| > 0 && Rank(paths[0]) <= Rank(r[i])
    decreases |paths|
  {
    if |paths| == 0 then []
    else
      var rest := AbsentAmong(c, paths[1..]);
      assert forall p :: p in paths[1..] ==> Rank(paths[0]) < Rank(p);
      (if Absent(c, paths[0]) then [paths[0]] else []) + rest
  }

  /** The required paths whose validator fails: every such path and no
      other, each once, in schema order. */
  function MissingFields(c: CourseInput): (missing: seq<string>)
    ensures forall p :: p in missing <==> p in RequiredPaths && Absent(c, p)
    ensures forall i, j :: 0 <= i < j < |missing| ==> Rank(missing[i]) < Rank(missing[j])
  {
    assert forall p :: p in RequiredOrder <==> p in RequiredPaths;
    AbsentAmong(c, RequiredOrder)
  }

  /** Mongoose's default message of a failed `required` validator. */
  function RequiredMessage(path: string): string {
    "Path `" + path + "` is required."
  }

  function JoinRequired(paths: seq<string>): string {
    if |paths| == 0 then ""
    else if |paths| == 1 then paths[0] + ": " + RequiredMessage(paths[0])
    else paths[0] + ": " + RequiredMessage(paths[0]) + ", " + JoinRequired(paths[1..])
  }

  predicate AllRequiredPresent(c: CourseInput) {
    && Truthy(c.name) && Truthy(c.description)
    && c.price.Some? && c.estimatedPrice.Some?
    && Truthy(c.level) && Truthy(c.demoUrl)
  }

  /** No required path is reported missing exactly when all are present. */
  lemma NoneMissingIff(c: CourseInput)
    ensures MissingFields(c) == [] <==> AllRequiredPresent(c)
  {
    var m := MissingFields(c);
    if !Truthy(c.name) { assert "name" in m; }
    else if !Truthy(c.description) { assert "description" in m; }
    else if c.price.None? { assert "price" in m; }
    else if c.estimatedPrice.None? { assert "estimatedPrice" in m; }
    else if !Truthy(c.level) { assert "level" in m; }
    else if !Truthy(c.demoUrl) { assert "demoUrl" in m; }
  }

  /** `CourseModel.create(input)`: the required fields, then the defaults
      `tags = []`, `ratings = 0`, `purchased = 0` and `rating = 0` on each
      review. */
  function CreateCourse(c: CourseInput): (r: Result<Course, string>)
    ensures r.Ok? <==> AllRequiredPresent(c)
    ensures r.Ok? ==>
      && r.value.name == c.name.value && r.value.description == c.description.value
      && r.value.price == c.price.value && r.value.estimatedPrice == c.estimatedPrice.value
      && r.value.tags == (if c.tags.Some? then c.tags.value else []) && r.value.level == c.level.value && r.value.demoUrl == c.demoUrl.value
      && r.value.thumbnail == c.thumbnail
      && r.value.ratings == (if c.ratings.Some? then c.ratings.value else 0)
      && r.value.purchased == (if c.purchased.Some? then c.purchased.value else 0)
      && |r.value.reviews| == |c.reviews|
      && forall k :: 0 <= k < |c.reviews| ==> r.value.reviews[k] == NewReview(c.reviews[k])
  {
    NoneMissingIff(c);
    var missing := MissingFields(c);
    if missing != [] then Err("Course validation failed: " + JoinRequired(missing))
    else
      Ok(Course(c.name.value, c.description.value, c.price.value, c.estimatedPrice.value,
                c.thumbnail, c.tags.GetOr([]), c.level.value, c.demoUrl.value,
                c.benefits, c.prerequisites,
                NewReviews(c.reviews),
                c.ratings.GetOr(0), c.purchased.GetOr(0)))
  }

  /** A course created without `ratings` and `purchased` starts at 0 for
      both, whatever its thumbnail holds. */
  lemma NewCourseCountsStartAtZero(c: CourseInput)
    requires AllRequiredPresent(c)
    requires c.ratings.None? && c.purchased.None?
    ensures CreateCourse(c).Ok?
    ensures CreateCourse(c).value.ratings == 0 && CreateCourse(c).value.purchased == 0
  {
  }

  /** Leaving out any one required field makes creation fail, and the
      field is among those reported. */
  lemma MissingRequiredFails(c: CourseInput, path: string)
    requires path in RequiredPaths && Absent(c, path)
    ensures path in MissingFields(c)
    ensures CreateCourse(c).Err?
  {
  }

  /** The thumbnail is optional: a course with an empty thumbnail is created
      whenever the required fields are present. */
  lemma ThumbnailOptional(c: CourseInput)
    requires AllRequiredPresent(c)
    ensures CreateCourse(c.(thumbnail := Thumbnail(None, None))).Ok?
  {
  }

  /** A course posted without `tags` is still created, with an empty list:
      the implicit array default satisfies `required`. */
  lemma TagsDefaultToEmpty(c: CourseInput)
    requires AllRequiredPresent(c)
    ensures CreateCourse(c.(tags := None)).Ok?
    ensures CreateCourse(c.(tags := None)).value.tags == []
  {
  }
}

=== FILE: crypto.dfy ===
/** The password hashing library (bcrypt), as a symbolic model.

    A digest records what was hashed and under which salt; nothing about the
    hash function's internals is modelled. The model relies on two facts only:
    comparing a candidate against the digest of that same candidate succeeds
    (`CompareHash`), and comparing anything else fails (`CompareOnlyOriginal`). */
module Crypto {

  /** The value of a password field: the text a client sent, or a digest of
      an earlier value of the field. */
  datatype Password = Plain(text: string) | Digest(of: Password, salt: nat)

  /** `bcrypt.hash(p, 10)`; the random salt is a parameter. A digest is
      never the value it was made from, and a digest of a plain text is
      matched by that text. */
  function Hash(p: Password, salt: nat): (h: Password)
    ensures h != p
    ensures p.Plain? ==> Compare(p.text, h)
  {
    assert Rounds(Digest(p, salt)) == Rounds(p) + 1;
    Digest(p, salt)
  }

  /** How many times the original text has been hashed. */
  ghost function Rounds(p: Password): nat {
    match p
    case Plain(_) => 0
    case Digest(q, _) => Rounds(q) + 1
  }

  /** `bcrypt.compare(candidate, stored)`: true exactly when `stored` is a
      digest of the plain text `candidate`, under whatever salt. A stored
      value that is not a digest never compares equal. */
  predicate Compare(candidate: string, stored: Password)
    ensures Compare(candidate, stored) <==> exists salt: nat :: stored == Digest(Plain(candidate), salt)
    ensures Compare(candidate, stored) ==> stored != Plain(candidate)
  {
    stored.Digest? && stored.of == Plain(candidate)
  }

  /** The round trip the login flow relies on: a password compares equal to
      its own digest, whatever the salt. */
  lemma CompareHash(p: string, salt: nat)
    ensures Compare(p, Hash(Plain(p), salt))
  {
  }

  /** A digest admits only the text it was made from. */
  lemma CompareOnlyOriginal(p: string, q: string, salt: nat)
    ensures Compare(q, Hash(Plain(p), salt)) <==> q == p
  {
  }

  /** Hashing a digest a second time yields a value that the original
      password no longer matches. */
  lemma RehashBreaksCompare(p: string, salt1: nat, salt2: nat)
    ensures !Compare(p, Hash(Hash(Plain(p), salt1), salt2))
  {
  }
}

=== FILE: email_pattern.dfy ===
/** The e-mail validator shared by both user schemas, the regular expression
        ^[a-zA-Z0-9._-]+@[a-zA-Z0-9.-]+\.[a-zA-Z]{2,}$
    written out with character-class predicates.

    `Matches` is the pattern's meaning: some '@' position and some '.'
    position split the string into a local part, a domain and a top-level
    part of the right classes. `Test` is the deterministic check that picks
    the first '@' and the last '.'; its contract says the two agree on
    every string, which is what licenses the single-position reading used
    by the properties below. */
module EmailPattern {
  import opened Common

  /** The class `[a-zA-Z0-9._-]` of the local part. */
  predicate IsLocalChar(c: char) {
    IsLetter(c) || IsDigit(c) || c == '.' || c == '_' || c == '-'
  }

  /** The class `[a-zA-Z0-9.-]` of the domain. */
  predicate IsDomainChar(c: char) {
    IsLetter(c) || IsDigit(c) || c == '.' || c == '-'
  }

  predicate AllLocal(s: string) {
    forall k :: 0 <= k < |s| ==> IsLocalChar(s[k])
  }

  predicate AllDomain(s: string) {
    forall k :: 0 <= k < |s| ==> IsDomainChar(s[k])
  }

  predicate AllLetters(s: string) {
    forall k :: 0 <= k < |s| ==> IsLetter(s[k])
  }

  /** `s` matches the pattern with its '@' at `at` and the '.' before the
      top-level part at `dot`. */
  predicate SplitsAt(s: string, at: nat, dot: nat) {
    && 0 < at
    && at + 1 < dot
    && dot + 2 < |s|
    && s[at] == '@'
    && s[dot] == '.'
    && AllLocal(s[..at])
    && AllDomain(s[at + 1..dot])
    && AllLetters(s[dot + 1..])
  }

  /** The regular expression accepts `s`. */
  ghost predicate Matches(s: string) {
    exists at: nat, dot: nat :: SplitsAt(s, at, dot)
  }

  /** The first position of `c` in `s`. */
  function IndexOf(s: string, c: char): (r: Option<nat>)
    ensures r.Some? ==> r.value < |s| && s[r.value] == c && forall k :: 0 <= k < r.value ==> s[k] != c
    ensures r.None? ==> forall k :: 0 <= k < |s| ==> s[k] != c
  {
    if |s| == 0 then None
    else if s[0] == c then Some(0)
    else match IndexOf(s[1..], c)
      case None => None
      case Some(i) => Some(i + 1)
  }

  /** The last position of `c` in `s`. */
  function LastIndexOf(s: string, c: char): (r: Option<nat>)
    ensures r.Some? ==> r.value < |s| && s[r.value] == c && forall k :: r.value < k < |s| ==> s[k] != c
    ensures r.None? ==> forall k :: 0 <= k < |s| ==> s[k] != c
  {
    if |s| == 0 then None
    else if s[|s| - 1] == c then Some(|s| - 1)
    else LastIndexOf(s[..|s| - 1], c)
  }

  /** `emailRegexPattern.test(s)`: accepts exactly what the pattern matches. */
  function Test(s: string): (ok: bool)
    ensures ok <==> Matches(s)
  {
    MatchesAtFirstAtLastDot(s);
    match (IndexOf(s, '@'), LastIndexOf(s, '.'))
    case (Some(at), Some(dot)) => SplitsAt(s, at, dot)
    case _ => false
  }

  /** Every split the pattern admits puts the '@' at its only occurrence and
      the '.' at its last occurrence. */
  lemma SplitIsUnique(s: string, at: nat, dot: nat)
    requires SplitsAt(s, at, dot)
    ensures forall k :: 0 <= k < |s| ==> (s[k] == '@' <==> k == at)
    ensures forall k :: dot < k < |s| ==> s[k] != '.'
  {
    forall k | 0 <= k < |s| && k != at
      ensures s[k] != '@'
    {
      if k < at {
        assert s[..at][k] == s[k];
      } else if k < dot {
        assert s[at + 1..dot][k - at - 1] == s[k];
      } else if k > dot {
        assert s[dot + 1..][k - dot - 1] == s[k];
      }
    }
    forall k | dot < k < |s|
      ensures s[k] != '.'
    {
      assert s[dot + 1..][k - dot - 1] == s[k];
    }
  }

  /** When the pattern matches, it matches at the first '@' and the last '.'. */
  lemma MatchesAtFirstAtLastDot(s: string)
    ensures Matches(s) ==>
      && IndexOf(s, '@').Some? && LastIndexOf(s, '.').Some?
      && SplitsAt(s, IndexOf(s, '@').value, LastIndexOf(s, '.').value)
  {
    if Matches(s) {
      var at: nat, dot: nat :| SplitsAt(s, at, dot);
      SplitIsUnique(s, at, dot);
      assert IndexOf(s, '@') == Some(at);
      assert LastIndexOf(s, '.') == Some(dot);
    }
  }

  /** An accepted address contains exactly one '@', preceded by a non-empty
      local part over `[A-Za-z0-9._-]`. */
  lemma AcceptedHasOneAt(s: string)
    requires Test(s)
    ensures exists at: nat ::
              && at < |s|
              && 0 < at
              && AllLocal(s[..at])
              && (forall k :: 0 <= k < |s| ==> (s[k] == '@' <==> k == at))
  {
    var at := IndexOf(s, '@').value;
    var dot := LastIndexOf(s, '.').value;
    SplitIsUnique(s, at, dot);
  }

  /** An accepted address ends in '.' followed by at least two ASCII letters
      and nothing else. */
  lemma AcceptedEndsInLetters(s: string)
    requires Test(s)
    ensures exists dot: nat :: dot + 2 < |s| && s[dot] == '.' && AllLetters(s[dot + 1..])
  {
    var dot := LastIndexOf(s, '.').value;
    assert dot + 2 < |s| && s[dot] == '.' && AllLetters(s[dot + 1..]);
  }
}

=== FILE: error_middleware.dfy ===
/** `errorHandler` of `middleware/error.ts`: how an upstream error is
    normalised into a status code and a message.

    The handler applies its defaults and three rewrites in sequence; a
    rewrite replaces the whole error by `new ErrorHandler(message, 400)`.
    `utils/error-handler.ts` is not part of this model: an `ErrorHandler`
    instance is taken to be named "Error" and to carry no `code` and no
    `path`. The handler computes the normalised error and writes nothing:
    it neither sends a response nor calls `next`. */
module ErrorMiddleware {
  import opened Common

  /** The fields of `err` the handler reads or writes. */
  datatype ErrorValue = ErrorValue(
    name: string,
    statusCode: Option<nat>,
    message: Option<string>,
    code: Option<int>,
    path: Option<string>)

  const DuplicateKeyCode := 11000
  const DefaultMessage := "Internal Server Error"

  /** `new ErrorHandler(message, statusCode)`. */
  function NewErrorHandler(message: string, statusCode: nat): ErrorValue {
    ErrorValue("Error", Some(statusCode), Some(message), None, None)
  }

  /** The text a template literal gives an optional path. */
  function PathText(path: Option<string>): string {
    match path
    case Some(p) => p
    case None => "undefined"
  }

  function ResourceMessage(path: Option<string>): string {
    "Resource not found. Invalid " + PathText(path)
  }

  /** `err.statusCode || 500` and `err.message || 'Internal Server Error'`. */
  function WithDefaults(err: ErrorValue): ErrorValue {
    err.(statusCode := Some(if err.statusCode.None? || err.statusCode.value == 0 then 500 else err.statusCode.value),
         message := Some(if Truthy(err.message) then err.message.value else DefaultMessage))
  }

  /** One `if` of the handler: when `applies`, `err` is replaced. */
  function RewriteIf(applies: bool, err: ErrorValue): ErrorValue {
    if applies then NewErrorHandler(ResourceMessage(err.path), 400) else err
  }

  /** The error as it stands when the handler returns: a cast or
      duplicate-key error is replaced by a 400 naming the path; any other
      error keeps its name, code and path and gets a truthy status and
      message, its own where it had them. */
  function Normalise(err: ErrorValue): (r: ErrorValue)
    ensures r.statusCode.Some? && r.statusCode.value != 0
    ensures r.message.Some? && r.message.value != ""
    ensures err.name == "CastError" || err.code == Some(DuplicateKeyCode) ==>
      r == NewErrorHandler(ResourceMessage(err.path), 400)
    ensures err.name != "CastError" && err.code != Some(DuplicateKeyCode) ==>
      && r.name == err.name && r.code == err.code && r.path == err.path
      && (err.statusCode.Some? && err.statusCode.value != 0 ==> r.statusCode == err.statusCode)
      && (Truthy(err.message) ==> r.message == err.message)
      && (err.statusCode.None? || err.statusCode.value == 0 ==> r.statusCode == Some(500))
      && (!Truthy(err.message) ==> r.message == Some(DefaultMessage))
  {
    var e1 := WithDefaults(err);
    var e2 := RewriteIf(e1.name == "CastError", e1);
    var e3 := RewriteIf(e2.code == Some(DuplicateKeyCode), e2);
    RewriteIf(e3.name == "CastError", e3)
  }

  /** The status and message the handler settles on. */
  function Normalised(err: ErrorValue): ApiError {
    var r := Normalise(err);
    ApiError(r.statusCode.value, r.message.value)
  }

  /** A missing (or zero) status becomes 500 and a missing (or empty)
      message becomes "Internal Server Error", for any error that is neither
      a cast error nor a duplicate-key error; any other status and message
      are kept. */
  lemma OrdinaryErrorKeepsOrDefaults(err: ErrorValue)
    requires err.name != "CastError" && err.code != Some(DuplicateKeyCode)
    ensures Normalised(err).status ==
      if err.statusCode.None? || err.statusCode.value == 0 then 500 else err.statusCode.value
    ensures Normalised(err).message ==
      if err.message.None? || err.message.value == "" then DefaultMessage else err.message.value
  {
  }

  /** A cast error becomes 400 "Resource not found. Invalid <path>",
      whatever its own status, message and code. */
  lemma CastErrorBecomes400(err: ErrorValue)
    requires err.name == "CastError"
    ensures Normalised(err) == ApiError(400, "Resource not found. Invalid " + PathText(err.path))
  {
  }

  /** A duplicate-key error becomes 400 with the same message shape. */
  lemma DuplicateKeyBecomes400(err: ErrorValue)
    requires err.code == Some(DuplicateKeyCode)
    ensures Normalised(err) == ApiError(400, "Resource not found. Invalid " + PathText(err.path))
  {
  }

  /** Normalising is idempotent on the outcome: a normalised error passes
      through the handler unchanged. */
  lemma NormaliseIdempotent(err: ErrorValue)
    ensures Normalised(Normalise(err)) == Normalised(err)
  {
  }
}

=== FILE: generate_token.dfy ===
/** `generateVerificationToken` of `utils/generate-token.ts`: a six-character
    numeric code and a five-minute token signed under `JWT_SECRET` whose
    payload is `{ userId, verificationCode }`.

    The code is `(100000 + Math.random() * 900000).toFixed().substring(0, 6)`.
    The random float and its rounding are abstracted into a `Draw`, the
    integer that `toFixed()` prints; the model computes the decimal text of
    that integer and its six-character prefix. */
module VerificationToken {
  import opened Common
  import Jwt

  /** `Math.random()` lies in [0, 1), so the rounded value of
      `100000 + Math.random() * 900000` lies in [100000, 1000000]. */
  type Draw = n: nat | 100000 <= n <= 1000000 witness 100000

  /** The token lifetime, `expiresIn: '5m'`, in seconds. */
  const ExpiresIn: nat := 300

  const CodeLength: nat := 6

  predicate AllDigits(s: string) {
    forall k :: 0 <= k < |s| ==> IsDigit(s[k])
  }

  function DigitChar(d: nat): (c: char)
    requires d < 10
  {
    ('0' as int + d) as char
  }

  function DigitValue(c: char): nat
    requires IsDigit(c)
  {
    c as int - '0' as int
  }

  /** The decimal text of `n`, as `toFixed()` prints a non-negative integer. */
  function DecimalString(n: nat): string
    decreases n
  {
    if n < 10 then [DigitChar(n)] else DecimalString(n / 10) + [DigitChar(n % 10)]
  }

  /** The number a string of digits denotes. */
  function DecimalValue(s: string): nat
    requires AllDigits(s)
  {
    if |s| == 0 then 0 else DecimalValue(s[..|s| - 1]) * 10 + DigitValue(s[|s| - 1])
  }

  function Pow10(k: nat): nat {
    if k == 0 then 1 else 10 * Pow10(k - 1)
  }

  lemma SixDigitBounds()
    ensures Pow10(5) == 100000 && Pow10(6) == 1000000
  {
    assert Pow10(2) == 100;
    assert Pow10(4) == 10000;
  }

  /** `s.substring(0, k)`. */
  function Prefix(s: string, k: nat): (r: string)
    ensures |r| == if |s| <= k then |s| else k
    ensures r == s[..|r|]
  {
    if |s| <= k then s else s[..k]
  }

  /** Printing then reading a number gives it back, and the text is digits. */
  lemma {:induction false} DecimalRoundTrip(n: nat)
    ensures AllDigits(DecimalString(n))
    ensures DecimalValue(DecimalString(n)) == n
    decreases n
  {
    var s := DecimalString(n);
    if n >= 10 {
      DecimalRoundTrip(n / 10);
      assert s[..|s| - 1] == DecimalString(n / 10);
    }
  }

  /** A number in [10^(k-1), 10^k) prints with exactly k digits. */
  lemma {:induction false} DecimalLength(n: nat, k: nat)
    requires 1 <= k
    requires Pow10(k - 1) <= n < Pow10(k)
    ensures |DecimalString(n)| == k
    decreases k
  {
    if k > 1 {
      assert Pow10(k) == 10 * Pow10(k - 1);
      assert Pow10(k - 1) == 10 * Pow10(k - 2);
      DecimalLength(n / 10, k - 1);
    }
  }

  /** A positive number prints without a leading zero. */
  lemma {:induction false} NoLeadingZero(n: nat)
    requires n >= 1
    ensures DecimalString(n)[0] != '0'
    decreases n
  {
    if n >= 10 {
      NoLeadingZero(n / 10);
    }
  }

  /** The verification code `toFixed().substring(0, 6)` makes of a draw. It
      always has six digits with a non-zero first digit; it is the draw
      itself, except that the largest draw, 1000000, is cut to "100000". */
  function CodeOf(n: Draw): (code: string)
    ensures |code| == CodeLength
    ensures AllDigits(code)
    ensures code[0] != '0'
    ensures DecimalValue(code) == if n == 1000000 then 100000 else n
    ensures 100000 <= DecimalValue(code) <= 999999
  {
    SixDigitBounds();
    DecimalRoundTrip(n);
    DecimalRoundTrip(100000);
    DecimalLength(100000, 6);
    NoLeadingZero(100000);
    NoLeadingZero(n);
    if n < 1000000 then
      DecimalLength(n, 6);
      Prefix(DecimalString(n), CodeLength)
    else
      assert DecimalString(n) == DecimalString(100000) + ['0'];
      Prefix(DecimalString(n), CodeLength)
  }

  /** What `generateVerificationToken` returns. */
  datatype IssuedCode = IssuedCode(token: Jwt.Token, verificationCode: string)

  /** The payload the helper signs: `{ userId, verificationCode }`. */
  function CodePayload(userId: nat, code: string): Jwt.Payload {
    Jwt.Payload(None, Some(userId), None, Some(code))
  }

  /** `generateVerificationToken(userId)` at time `now` (seconds). The helper
      takes only `userId`; a second argument passed by a caller is dropped.
      Signing throws when `JWT_SECRET` is absent. */
  function GenerateVerificationToken(userId: nat, n: Draw, jwtSecret: Option<string>, now: int): (r: Result<IssuedCode, string>)
    ensures r.Ok? <==> Truthy(jwtSecret)
    ensures r.Err? ==> r.error == Jwt.NoSigningKey
    ensures r.Ok? ==>
      && r.value.verificationCode == CodeOf(n)
      && r.value.token.payload == CodePayload(userId, r.value.verificationCode)
      && r.value.token.payload.email.None?
      && r.value.token.secret == jwtSecret.value
      && r.value.token.expiresAt == Some(now + ExpiresIn)
  {
    var code := CodeOf(n);
    match Jwt.Sign(CodePayload(userId, code), jwtSecret, Some(ExpiresIn), now)
    case Ok(t) => Ok(IssuedCode(t, code))
    case Err(e) => Err(e)
  }

  /** The helper as its caller evidently expects it: the controller passes
      the address as a second argument and later reads `email` back from the
      verified payload, so the corrected helper signs
      `{ userId, email, verificationCode }`. It differs from the helper as
      written only in the payload's address. */
  function GenerateVerificationTokenWithEmail(userId: nat, email: string, n: Draw, jwtSecret: Option<string>, now: int): (r: Result<IssuedCode, string>)
    ensures r.Ok? <==> Truthy(jwtSecret)
    ensures r.Err? ==> r.error == Jwt.NoSigningKey
    ensures r.Ok? ==>
      && r.value.verificationCode == CodeOf(n)
      && r.value.token.payload == Jwt.Payload(None, Some(userId), Some(email), Some(CodeOf(n)))
      && r.value.token.secret == jwtSecret.value
      && r.value.token.expiresAt == Some(now + ExpiresIn)
    ensures var written := GenerateVerificationToken(userId, n, jwtSecret, now);
      r.Ok? ==> written.Ok? && r.value.token == written.value.token.(payload := written.value.token.payload.(email := Some(email)))
  {
    var code := CodeOf(n);
    match Jwt.Sign(Jwt.Payload(None, Some(userId), Some(email), Some(code)), jwtSecret, Some(ExpiresIn), now)
    case Ok(t) => Ok(IssuedCode(t, code))
    case Err(e) => Err(e)
  }

  /** The code returned beside the token is the code inside it: verifying
      the token under `JWT_SECRET` within five minutes gives back
      `{ userId, verificationCode }`, and afterwards fails as expired. */
  lemma IssuedCodeRoundTrip(userId: nat, n: Draw, jwtSecret: Option<string>, now: int, later: int)
    requires Truthy(jwtSecret)
    requires now <= later
    ensures GenerateVerificationToken(userId, n, jwtSecret, now).Ok?
    ensures var issued := GenerateVerificationToken(userId, n, jwtSecret, now).value;
      Jwt.Verify(Jwt.Signed(issued.token), jwtSecret, later) ==
        if later < now + ExpiresIn then Ok(CodePayload(userId, issued.verificationCode))
        else Err(Jwt.ExpiredToken)
  {
  }
}

=== FILE: jwt.dfy ===
/** The signed-token library (jsonwebtoken), as a symbolic model.

    A token records its payload, the secret that signed it, its issue time and
    its optional expiry, all in seconds. `Verify` accepts a token exactly when
    it is presented with the secret that signed it and before its expiry, and
    then returns the payload unchanged (`SignVerifyRoundTrip`). The error
    messages are the library's own. */
module Jwt {
  import opened Common

  /** The claims a payload may carry. Every field is optional because the
      handlers read claims that the signer may never have written. */
  datatype Payload = Payload(
    id: Option<nat>,
    userId: Option<nat>,
    email: Option<string>,
    verificationCode: Option<string>)

  /** `{ id }`, the payload of access and refresh tokens. */
  function IdPayload(id: nat): Payload {
    Payload(Some(id), None, None, None)
  }

  datatype Token = Token(payload: Payload, secret: string, issuedAt: int, expiresAt: Option<int>)

  /** A token as a client submits it: missing, not a token at all, or signed. */
  datatype TokenText = Absent | Malformed | Signed(token: Token)

  /** The environment secrets: `JWT_SECRET`, `ACCESS_TOKEN` and `REFRESH_TOKEN`. */
  datatype Secrets = Secrets(jwtSecret: Option<string>, accessToken: Option<string>, refreshToken: Option<string>)

  const NoSigningKey := "secretOrPrivateKey must have a value"
  const NoVerifyingKey := "secret or public key must be provided"
  const NotProvided := "jwt must be provided"
  const NotAToken := "jwt malformed"
  const BadSignature := "invalid signature"
  const ExpiredToken := "jwt expired"

  /** `jwt.sign(payload, secret, { expiresIn })` at time `now`. */
  function Sign(payload: Payload, secret: Option<string>, expiresIn: Option<nat>, now: int): (r: Result<Token, string>)
    ensures r.Ok? <==> Truthy(secret)
    ensures r.Err? ==> r.error == NoSigningKey
    ensures r.Ok? ==> r.value.payload == payload && r.value.secret == secret.value && r.value.issuedAt == now
    ensures r.Ok? ==> (r.value.expiresAt.Some? <==> expiresIn.Some?)
    ensures r.Ok? && expiresIn.Some? ==> r.value.expiresAt == Some(now + expiresIn.value)
  {
    if !Truthy(secret) then Err(NoSigningKey)
    else
      var exp := match expiresIn
        case Some(seconds) => Some(now + seconds)
        case None => None;
      Ok(Token(payload, secret.value, now, exp))
  }

  /** True when the token has an expiry and `now` has reached it. */
  predicate ExpiredAt(t: Token, now: int) {
    t.expiresAt.Some? && now >= t.expiresAt.value
  }

  /** `jwt.verify(text, secret)` at time `now`, in the library's order of
      checks: presence, shape, key, signature, expiry. */
  function Verify(text: TokenText, secret: Option<string>, now: int): (r: Result<Payload, string>)
    ensures r.Ok? <==> text.Signed? && Truthy(secret) && text.token.secret == secret.value && !ExpiredAt(text.token, now)
    ensures r.Ok? ==> r.value == text.token.payload
  {
    match text
    case Absent => Err(NotProvided)
    case Malformed => Err(NotAToken)
    case Signed(t) =>
      if !Truthy(secret) then Err(NoVerifyingKey)
      else if t.secret != secret.value then Err(BadSignature)
      else if ExpiredAt(t, now) then Err(ExpiredToken)
      else Ok(t.payload)
  }

  /** verify ∘ sign is the identity on payloads, for the same secret and
      before the expiry. */
  lemma SignVerifyRoundTrip(payload: Payload, secret: Option<string>, expiresIn: Option<nat>, now: int, later: int)
    requires Truthy(secret)
    requires now <= later
    requires expiresIn.Some? ==> later < now + expiresIn.value
    ensures Sign(payload, secret, expiresIn, now).Ok?
    ensures Verify(Signed(Sign(payload, secret, expiresIn, now).value), secret, later) == Ok(payload)
  {
  }

  /** A token is rejected under any other secret, and once expired. */
  lemma VerifyRejects(t: Token, secret: Option<string>, now: int)
    requires Truthy(secret)
    requires t.secret != secret.value || ExpiredAt(t, now)
    ensures Verify(Signed(t), secret, now) == Err(if t.secret != secret.value then BadSignature else ExpiredToken)
  {
  }
}

=== FILE: layout_controller.dfy ===
/** `createLayout` of `controllers/layout-controller.ts`: at most one layout
    per type, with the request's items projected onto the layout schema.

    A request item is a JSON object, modelled as a map from field names to
    values; the projection keeps the named fields (undefined when absent)
    and drops every other field. The asset host's upload of the banner
    image is a parameter: it either returns the stored image or throws. */
module LayoutController {
  import opened Common
  import opened Store

  const BannerType := "Banner"
  const FaqType := "FAQ"
  const CategoriesType := "Categories"
  /** What `undefined.map(...)` throws when the list is missing. */
  const MapOfUndefined := "Cannot read properties of undefined (reading 'map')"

  type Item = map<string, string>

  datatype LayoutRequest = LayoutRequest(
    kind: string,
    title: Option<string>,
    subTitle: Option<string>,
    faq: Option<seq<Item>>,
    categories: Option<seq<Item>>)

  /** The asset host's answer to uploading the banner image. */
  datatype UploadResult = Uploaded(image: Asset) | UploadFailed(message: string)

  datatype LayoutBody = LayoutBody(message: string)

  /** `item.<key>`. */
  function Field(item: Item, key: string): Option<string> {
    if key in item then Some(item[key]) else None
  }

  /** `faq.map(item => ({ question: item.question, answer: item.answer }))`. */
  function ProjectFaq(items: seq<Item>): (r: seq<FaqItem>)
    ensures |r| == |items|
    ensures forall k :: 0 <= k < |items| ==>
      r[k] == FaqItem(Field(items[k], "question"), Field(items[k], "answer"))
  {
    seq(|items|, k requires 0 <= k < |items| => FaqItem(Field(items[k], "question"), Field(items[k], "answer")))
  }

  /** `categories.map(item => ({ title: item.title }))`. */
  function ProjectCategories(items: seq<Item>): (r: seq<Category>)
    ensures |r| == |items|
    ensures forall k :: 0 <= k < |items| ==> r[k] == Category(Field(items[k], "title"))
  {
    seq(|items|, k requires 0 <= k < |items| => Category(Field(items[k], "title")))
  }

  /** `LayoutModel.findOne({ type })` finds something. */
  predicate TypeExists(layouts: seq<Layout>, kind: string) {
    exists k :: 0 <= k < |layouts| && layouts[k].kind == kind
  }

  /** No two layouts share a type. */
  predicate OnePerType(layouts: seq<Layout>) {
    forall i, j :: 0 <= i < j < |layouts| ==> layouts[i].kind != layouts[j].kind
  }

  function Created(store: Store, layout: Layout, kind: string): Outcome<LayoutBody> {
    Outcome(store.(layouts := store.layouts + [layout]), Respond(200, LayoutBody(SuccessMessage(kind))))
  }

  function SuccessMessage(kind: string): string {
    "Layout type " + kind + " created successfully"
  }

  /** `createLayout`. */
  function CreateLayout(store: Store, req: LayoutRequest, upload: UploadResult): (r: Outcome<LayoutBody>)
    ensures r.store.users == store.users && r.store.courses == store.courses
    ensures r.store.orders == store.orders && r.store.notifications == store.notifications
    ensures r.reply.Fail? ==> r.store == store
    ensures r.store.layouts == store.layouts
      || (&& !TypeExists(store.layouts, req.kind)
          && |r.store.layouts| == |store.layouts| + 1
          && r.store.layouts[..|store.layouts|] == store.layouts
          && r.store.layouts[|store.layouts|].kind == req.kind)
    ensures r.reply.Respond? ==> r.reply == Respond(200, LayoutBody(SuccessMessage(req.kind)))
    ensures TypeExists(store.layouts, req.kind) ==> r == Outcome(store, Failure(400, req.kind + " already exist"))
    ensures !TypeExists(store.layouts, req.kind) && req.kind == BannerType && upload.UploadFailed? ==>
      r == Outcome(store, Failure(500, upload.message))
    ensures !TypeExists(store.layouts, req.kind) && req.kind == FaqType && req.faq.None? ==>
      r == Outcome(store, Failure(500, MapOfUndefined))
    ensures !TypeExists(store.layouts, req.kind) && req.kind == CategoriesType && req.categories.None? ==>
      r == Outcome(store, Failure(500, MapOfUndefined))
  {
    if TypeExists(store.layouts, req.kind) then
      Outcome(store, Failure(400, req.kind + " already exist"))
    else if req.kind == BannerType then
      match upload
      case UploadFailed(message) => Outcome(store, Failure(500, message))
      case Uploaded(image) => Created(store, Layout(BannerType, BannerContent(image, req.title, req.subTitle)), req.kind)
    else if req.kind == FaqType then
      match req.faq
      case None => Outcome(store, Failure(500, MapOfUndefined))
      case Some(items) => Created(store, Layout(FaqType, FaqContent(ProjectFaq(items))), req.kind)
    else if req.kind == CategoriesType then
      match req.categories
      case None => Outcome(store, Failure(500, MapOfUndefined))
      case Some(items) => Created(store, Layout(CategoriesType, CategoriesContent(ProjectCategories(items))), req.kind)
    else
      Outcome(store, Respond(200, LayoutBody(SuccessMessage(req.kind))))
  }

  /** A type that already has a layout is refused with 400 and nothing
      changes. */
  lemma ExistingTypeRefused(store: Store, req: LayoutRequest, upload: UploadResult)
    requires TypeExists(store.layouts, req.kind)
    ensures CreateLayout(store, req, upload) == Outcome(store, Failure(400, req.kind + " already exist"))
  {
  }

  /** Every call keeps at most one layout per type. */
  lemma CreatePreservesOnePerType(store: Store, req: LayoutRequest, upload: UploadResult)
    requires OnePerType(store.layouts)
    ensures OnePerType(CreateLayout(store, req, upload).store.layouts)
  {
  }

  /** An FAQ layout holds the request's items projected to question and
      answer, in the same number and order. */
  lemma FaqItemsProjected(store: Store, req: LayoutRequest, upload: UploadResult)
    requires !TypeExists(store.layouts, FaqType)
    requires req.kind == FaqType && req.faq.Some?
    ensures var layouts := CreateLayout(store, req, upload).store.layouts;
      && |layouts| == |store.layouts| + 1
      && layouts[|store.layouts|].content.FaqContent?
      && var stored := layouts[|store.layouts|].content.faq;
      && |stored| == |req.faq.value|
      && forall k :: 0 <= k < |stored| ==>
           stored[k].question == Field(req.faq.value[k], "question")
           && stored[k].answer == Field(req.faq.value[k], "answer")
  {
  }

  /** A categories layout holds the request's items projected to their
      titles, in the same number and order. */
  lemma CategoryItemsProjected(store: Store, req: LayoutRequest, upload: UploadResult)
    requires !TypeExists(store.layouts, CategoriesType)
    requires req.kind == CategoriesType && req.categories.Some?
    ensures var layouts := CreateLayout(store, req, upload).store.layouts;
      && |layouts| == |store.layouts| + 1
      && layouts[|store.layouts|].content.CategoriesContent?
      && var stored := layouts[|store.layouts|].content.categories;
      && |stored| == |req.categories.value|
      && forall k :: 0 <= k < |stored| ==> stored[k].title == Field(req.categories.value[k], "title")
  {
  }

  /** An unrecognised type stores nothing yet reports success. */
  lemma UnknownTypeReportsSuccess(store: Store, req: LayoutRequest, upload: UploadResult)
    requires !TypeExists(store.layouts, req.kind)
    requires req.kind != BannerType && req.kind != FaqType && req.kind != CategoriesType
    ensures CreateLayout(store, req, upload) == Outcome(store, Respond(200, LayoutBody(SuccessMessage(req.kind))))
  {
  }

  /** A banner stores the request's title and subtitle and the image the
      asset host returned. */
  lemma BannerStoresUpload(store: Store, req: LayoutRequest, image: Asset)
    requires !TypeExists(store.layouts, BannerType)
    requires req.kind == BannerType
    ensures CreateLayout(store, req, Uploaded(image)).store.layouts
      == store.layouts + [Layout(BannerType, BannerContent(image, req.title, req.subTitle))]
  {
  }
}

=== FILE: legacy_user_model.dfy ===
/** The older schema of `models/user.ts`. Its fields, validators, defaults,
    pre-save hook and `comparePassword` are textually those of
    `models/user-model.ts`, so the model reuses `UserSchema` for them (both
    files therefore accept exactly the same e-mail addresses); it differs
    only in having no token-signing methods. The lemmas below state the
    older file's promises against that shared definition. */
module LegacyUserSchema {
  import opened Common
  import opened Crypto
  import opened UserSchema

  /** A password shorter than six UTF-16 code units never yields a user. */
  lemma PasswordMinimum(name: Option<string>, email: Option<string>, password: string, salt: nat)
    requires Utf16Length(password) < 6
    ensures Create(NewUser(name, email, Some(password)), salt).Err?
  {
  }

  /** A created user starts as an unverified ordinary user. */
  lemma Defaults(d: NewUser, salt: nat)
    requires Create(d, salt).Ok?
    ensures Create(d, salt).value.role == "User"
    ensures Create(d, salt).value.isVerified == false
  {
  }

  /** The hook re-hashes on every save, so a document saved twice holds a
      digest of a digest. */
  lemma SavedTwiceHoldsDoubleDigest(u: User, p: string, salt1: nat, salt2: nat)
    requires u.password == Plain(p)
    ensures PreSave(PreSave(u, true, salt1), false, salt2).password == Digest(Digest(Plain(p), salt1), salt2)
    ensures !ComparePassword(PreSave(PreSave(u, true, salt1), false, salt2), p)
  {
  }

  /** `comparePassword(p)` succeeds on a document whose password is `hash(p)`. */
  lemma CompareAgainstHash(u: User, p: string, salt: nat)
    requires u.password == Hash(Plain(p), salt)
    ensures ComparePassword(u, p)
  {
  }
}

=== FILE: notification_controller.dfy ===
/** `getNotifications` and `updateNotificationStatus` of
    `controllers/notification-controller.ts`.

    Both reply with every notification sorted by `createdAt`, newest first
    (`sort({ createdAt: -1 })`). The database promises an order, not which
    of two equally old notifications comes first; the model sorts by
    insertion and its contract promises only the order and the contents. */
module NotificationController {
  import opened Common
  import opened Store

  const NotificationNotFound := "Notification not found"
  const ReadStatus := "read"

  datatype NotificationsBody = NotificationsBody(data: seq<Notification>)

  /** Sorted by `createdAt`, non-increasing. */
  predicate NewestFirst(s: seq<Notification>) {
    forall i, j :: 0 <= i < j < |s| ==> s[i].createdAt >= s[j].createdAt
  }

  /** Inserts `n` into a newest-first list, keeping it newest first. */
  function InsertByNewest(n: Notification, s: seq<Notification>): (r: seq<Notification>)
    requires NewestFirst(s)
    ensures NewestFirst(r)
    ensures multiset(r) == multiset(s) + multiset{n}
    ensures |r| == |s| + 1
    ensures r[0] == n || (|s| > 0 && r[0] == s[0])
    decreases |s|
  {
    if |s| == 0 || n.createdAt >= s[0].createdAt then [n] + s
    else
      var rest := InsertByNewest(n, s[1..]);
      assert s == [s[0]] + s[1..];
      assert s[0].createdAt >= rest[0].createdAt;
      [s[0]] + rest
  }

  /** `find().sort({ createdAt: -1 })`: the same notifications, newest first. */
  function SortNewestFirst(s: seq<Notification>): (r: seq<Notification>)
    ensures NewestFirst(r)
    ensures multiset(r) == multiset(s)
    decreases |s|
  {
    if |s| == 0 then []
    else
      assert s == [s[0]] + s[1..];
      InsertByNewest(s[0], SortNewestFirst(s[1..]))
  }

  /** `getNotifications`: every notification, newest first; nothing changes. */
  function GetNotifications(store: Store): (r: Outcome<NotificationsBody>)
    ensures r.store == store
    ensures r.reply.Respond? && r.reply.status == 200
    ensures NewestFirst(r.reply.body.data)
    ensures multiset(r.reply.body.data) == multiset(store.notifications)
  {
    Outcome(store, Respond(200, NotificationsBody(SortNewestFirst(store.notifications))))
  }

  /** `notification.status ? (notification.status = 'read') : notification.status`. */
  function MarkRead(n: Notification): (r: Notification)
    ensures r.(status := n.status) == n
    ensures r.status == "" <==> n.status == ""
    ensures r.status != "" ==> r.status == ReadStatus
  {
    if n.status != "" then n.(status := ReadStatus) else n
  }

  /** `updateNotificationStatus` for the notification with id `id`. */
  function UpdateNotificationStatus(store: Store, id: nat): (r: Outcome<NotificationsBody>)
    ensures id >= |store.notifications| ==> r == Outcome(store, Failure(404, NotificationNotFound))
    ensures id < |store.notifications| ==>
      && r.store == store.(notifications := store.notifications[id := MarkRead(store.notifications[id])])
      && r.reply.Respond? && r.reply.status == 200
      && NewestFirst(r.reply.body.data)
      && multiset(r.reply.body.data) == multiset(r.store.notifications)
  {
    if id >= |store.notifications| then Outcome(store, Failure(404, NotificationNotFound))
    else
      var saved := store.(notifications := store.notifications[id := MarkRead(store.notifications[id])]);
      Outcome(saved, Respond(200, NotificationsBody(SortNewestFirst(saved.notifications))))
  }

  /** Only the targeted notification changes: a non-empty status becomes
      "read", an empty one is left as it is, and every other notification
      and collection is untouched. */
  lemma UpdateTouchesOnlyTarget(store: Store, id: nat)
    requires id < |store.notifications|
    ensures var after := UpdateNotificationStatus(store, id).store;
      && |after.notifications| == |store.notifications|
      && (forall k :: 0 <= k < |store.notifications| && k != id ==> after.notifications[k] == store.notifications[k])
      && after.notifications[id].status == (if store.notifications[id].status == "" then "" else ReadStatus)
      && after.users == store.users && after.courses == store.courses
      && after.orders == store.orders && after.layouts == store.layouts
  {
  }

  /** Updating twice is the same as updating once, in store and reply. */
  lemma UpdateIdempotent(store: Store, id: nat)
    ensures var once := UpdateNotificationStatus(store, id);
      UpdateNotificationStatus(once.store, id) == once
  {
    if id < |store.notifications| {
      var once := UpdateNotificationStatus(store, id);
      assert once.store.notifications[id := MarkRead(once.store.notifications[id])] == once.store.notifications;
    }
  }
}

=== FILE: order_controller.dfy ===
/** `createOrder` of `controllers/order-controller.ts`: a purchase checks
    the requester's courses and the course, then records the order, adds the
    course to the requester, posts a "New Order" notification and updates
    the course's purchase counter.

    The requester is `req.user?._id` looked up with `findById`; when absent
    the handler carries on without a user, as the optional chaining in the
    source does. The order is written by `newOrder`, whose 201 reply is the
    handler's reply. The notification's `status` default comes from
    `models/notification-model.ts`, which is not part of this model; it is
    the parameter `defaultStatus`. */
module OrderController {
  import opened Common
  import opened UserSchema
  import opened CourseSchema
  import opened Store

  const AlreadyPurchased := "You have already purchased this course"
  const CourseNotFound := "Course not found"
  const NewOrderTitle := "New Order"

  datatype OrderRequest = OrderRequest(requester: Option<nat>, courseId: nat, paymentInfo: string)

  datatype OrderBody = OrderBody(order: Order)

  /** `course.purchased ? (course.purchased += 1) : course.purchased`: a
      counter at 0 is falsy and stays 0; any other value is incremented. */
  function CountPurchase(c: Course): (r: Course)
    ensures r.(purchased := c.purchased) == c
    ensures r.purchased == c.purchased || r.purchased == c.purchased + 1
    ensures r.purchased != c.purchased <==> c.purchased != 0
  {
    if c.purchased != 0 then c.(purchased := c.purchased + 1) else c
  }

  /** The notification a purchase posts. */
  function OrderNotification(user: Option<nat>, course: Course, defaultStatus: string, now: int): Notification {
    Notification(user, NewOrderTitle, "You have a new order from " + course.name, defaultStatus, now)
  }

  /** The requester is found and already lists the course. */
  predicate Owns(store: Store, req: OrderRequest) {
    var user := UserAt(store.users, req.requester);
    user.Some? && req.courseId in store.users[user.value].courses
  }

  /** `createOrder` at time `now`. It succeeds exactly for an existing
      course that the requester, if found, does not own yet. */
  function CreateOrder(store: Store, req: OrderRequest, defaultStatus: string, now: int): (r: Outcome<OrderBody>)
    ensures r.reply.Respond? <==> !Owns(store, req) && req.courseId < |store.courses|
    ensures r.reply.Fail? ==> r.store == store
    ensures r.reply.Fail? ==>
      r.reply.error == if Owns(store, req) then ApiError(400, AlreadyPurchased) else ApiError(404, CourseNotFound)
    ensures |r.store.users| == |store.users| && |r.store.courses| == |store.courses|
    ensures forall k :: 0 <= k < |store.users| && UserAt(store.users, req.requester) != Some(k) ==>
      r.store.users[k] == store.users[k]
    ensures r.reply.Respond? && UserAt(store.users, req.requester).Some? ==>
      var id := UserAt(store.users, req.requester).value;
      r.store.users[id] == store.users[id].(courses := store.users[id].courses + [req.courseId])
    ensures r.store.layouts == store.layouts
    ensures forall k :: 0 <= k < |store.courses| ==>
      r.store.courses[k] == store.courses[k]
      || (k == req.courseId && r.store.courses[k] == CountPurchase(store.courses[k]))
    ensures r.reply.Respond? ==>
      var user := UserAt(store.users, req.requester);
      && req.courseId < |store.courses|
      && r.reply.status == 201
      && r.reply.body.order == Order(req.courseId, user, req.paymentInfo)
      && r.store.orders == store.orders + [r.reply.body.order]
      && r.store.notifications == store.notifications + [OrderNotification(user, store.courses[req.courseId], defaultStatus, now)]
  {
    var user := UserAt(store.users, req.requester);
    if user.Some? && req.courseId in store.users[user.value].courses then
      Outcome(store, Failure(400, AlreadyPurchased))
    else if req.courseId >= |store.courses| then
      Outcome(store, Failure(404, CourseNotFound))
    else
      var course := store.courses[req.courseId];
      var order := Order(req.courseId, user, req.paymentInfo);
      var users := match user
        case Some(i) => store.users[i := store.users[i].(courses := store.users[i].courses + [req.courseId])]
        case None => store.users;
      var notifications := store.notifications + [OrderNotification(user, course, defaultStatus, now)];
      var courses := store.courses[req.courseId := CountPurchase(course)];
      Outcome(Store(users, courses, store.orders + [order], notifications, store.layouts), Respond(201, OrderBody(order)))
  }

  /** A course the requester already owns is refused with 400 and nothing
      changes. */
  lemma AlreadyPurchasedRefused(store: Store, req: OrderRequest, defaultStatus: string, now: int, id: nat)
    requires req.requester == Some(id) && id < |store.users|
    requires req.courseId in store.users[id].courses
    ensures CreateOrder(store, req, defaultStatus, now) == Outcome(store, Failure(400, AlreadyPurchased))
  {
  }

  /** An unknown course the requester does not list is refused with 404 and
      nothing changes (the ownership check runs first). */
  lemma UnknownCourseRefused(store: Store, req: OrderRequest, defaultStatus: string, now: int)
    requires req.courseId >= |store.courses|
    requires var user := UserAt(store.users, req.requester);
      user.None? || req.courseId !in store.users[user.value].courses
    ensures CreateOrder(store, req, defaultStatus, now) == Outcome(store, Failure(404, CourseNotFound))
  {
  }

  /** A successful order appends the course to the requester's courses once
      (it was not there before), changes no other user, and records one
      order and one "New Order" notification. */
  lemma OrderAddsCourseOnce(store: Store, req: OrderRequest, defaultStatus: string, now: int, id: nat)
    requires req.requester == Some(id) && id < |store.users|
    requires CreateOrder(store, req, defaultStatus, now).reply.Respond?
    ensures var after := CreateOrder(store, req, defaultStatus, now).store;
      && req.courseId !in store.users[id].courses
      && after.users[id].courses == store.users[id].courses + [req.courseId]
      && (forall k :: 0 <= k < |store.users| && k != id ==> after.users[k] == store.users[k])
      && |after.orders| == |store.orders| + 1
      && |after.notifications| == |store.notifications| + 1
      && after.notifications[|store.notifications|].title == NewOrderTitle
  {
  }

  /** Repeating a successful order for the same requester and course is
      refused as already purchased. */
  lemma RepeatOrderRefused(store: Store, req: OrderRequest, defaultStatus: string, now: int, later: int)
    requires req.requester.Some? && req.requester.value < |store.users|
    requires CreateOrder(store, req, defaultStatus, now).reply.Respond?
    ensures var after := CreateOrder(store, req, defaultStatus, now).store;
      CreateOrder(after, req, defaultStatus, later) == Outcome(after, Failure(400, AlreadyPurchased))
  {
    var after := CreateOrder(store, req, defaultStatus, now).store;
    var id := req.requester.value;
    assert after.users[id].courses[|store.users[id].courses|] == req.courseId;
  }

  /** The store after a sequence of order requests. */
  function PlaceOrders(store: Store, reqs: seq<OrderRequest>, defaultStatus: string, now: int): Store
    decreases |reqs|
  {
    if |reqs| == 0 then store
    else PlaceOrders(CreateOrder(store, reqs[0], defaultStatus, now).store, reqs[1..], defaultStatus, now)
  }

  /** The purchase counter of a course at 0, such as a newly created one,
      stays 0 however many orders are placed. */
  lemma {:induction false} PurchasedStaysZero(store: Store, reqs: seq<OrderRequest>, defaultStatus: string, now: int, c: nat)
    requires c < |store.courses| && store.courses[c].purchased == 0
    ensures c < |PlaceOrders(store, reqs, defaultStatus, now).courses|
    ensures PlaceOrders(store, reqs, defaultStatus, now).courses[c].purchased == 0
    decreases |reqs|
  {
    if |reqs| > 0 {
      var next := CreateOrder(store, reqs[0], defaultStatus, now).store;
      assert next.courses[c].purchased == 0;
      PurchasedStaysZero(next, reqs[1..], defaultStatus, now, c);
    }
  }

  /** A counter that is already positive grows by one exactly when an order
      for that course succeeds. */
  lemma PositiveCounterCounts(store: Store, req: OrderRequest, defaultStatus: string, now: int)
    requires req.courseId < |store.courses| && store.courses[req.courseId].purchased > 0
    ensures var r := CreateOrder(store, req, defaultStatus, now);
      r.store.courses[req.courseId].purchased
        == store.courses[req.courseId].purchased + (if r.reply.Respond? then 1 else 0)
  {
  }
}

=== FILE: store.dfy ===
/** The document collections the handlers read and write, and the outcome
    of a handler.

    Each collection is an immutable sequence: a document's id is its
    position, `create` appends, `findById` indexes, `findOne` returns the
    first match in insertion order, and `save` replaces a position.
    The order and notification schemas (`models/order-model.ts`,
    `models/notification-model.ts`) are not part of this model; their
    records below hold the fields the handlers write. The layout record
    follows `models/layout-model.ts`. */
module Store {
  import opened Common
  import opened UserSchema
  import opened CourseSchema

  /** `{ courseId, userId, payment_info }`; `userId` is undefined when the
      requester was not found. */
  datatype Order = Order(courseId: nat, userId: Option<nat>, paymentInfo: string)

  /** A notification; `status` starts at the schema default, and `createdAt`
      is the creation time. */
  datatype Notification = Notification(user: Option<nat>, title: string, message: string, status: string, createdAt: int)

  datatype FaqItem = FaqItem(question: Option<string>, answer: Option<string>)

  datatype Category = Category(title: Option<string>)

  /** The part of a layout its type selects. */
  datatype LayoutContent =
    | BannerContent(image: Asset, title: Option<string>, subTitle: Option<string>)
    | FaqContent(faq: seq<FaqItem>)
    | CategoriesContent(categories: seq<Category>)

  /** A layout document: its `type` and its content. */
  datatype Layout = Layout(kind: string, content: LayoutContent)

  datatype Store = Store(
    users: seq<User>,
    courses: seq<Course>,
    orders: seq<Order>,
    notifications: seq<Notification>,
    layouts: seq<Layout>)

  /** The user stored at position `id`, if any: `findById`, and also the
      document a query returns when the database picks it. */
  function UserAt(users: seq<User>, id: Option<nat>): (r: Option<nat>)
    ensures r.Some? <==> id.Some? && id.value < |users|
    ensures r.Some? ==> r == id
  {
    if id.Some? && id.value < |users| then id else None
  }

  /** A handler's effect: the collections afterwards and its reply. */
  datatype Outcome<+B> = Outcome(store: Store, reply: Reply<B>)
}

=== FILE: token_config.dfy ===
/** The cookie options of `utils/token-config.ts`.

    The lifetimes come from `ACCESS_TOKEN_EXPIRE` (minutes) and
    `REFRESH_TOKEN_EXPIRE` (days), falling back to 300 and 1200 when the
    variable is unset or empty; a set variable is taken to hold a
    non-negative integer. `Date.now()` is read once, when the module is
    loaded, and is the parameter `loadTime` (milliseconds). */
module TokenConfig {
  import opened Common

  const DefaultAccessExpire: nat := 300
  const DefaultRefreshExpire: nat := 1200
  const MsPerMinute: nat := 60 * 1000
  const MsPerDay: nat := 24 * 3600 * 1000

  /** The environment the module reads. */
  datatype TokenEnv = TokenEnv(accessTokenExpire: Option<nat>, refreshTokenExpire: Option<nat>, production: bool)

  datatype SameSite = Strict | Lax | NoRestriction

  /** `ITokenOptions`; `secure` is an optional field. */
  datatype CookieOptions = CookieOptions(expires: int, maxAge: nat, httpOnly: bool, sameSite: SameSite, secure: Option<bool>)

  /** `parseInt(process.env.ACCESS_TOKEN_EXPIRE || '300', 10)`, in minutes. */
  function AccessTokenExpire(env: TokenEnv): (minutes: nat)
    ensures env.accessTokenExpire.None? ==> minutes == 300
    ensures env.accessTokenExpire.Some? ==> minutes == env.accessTokenExpire.value
  {
    env.accessTokenExpire.GetOr(DefaultAccessExpire)
  }

  /** `parseInt(process.env.REFRESH_TOKEN_EXPIRE || '1200', 10)`, in days. */
  function RefreshTokenExpire(env: TokenEnv): (days: nat)
    ensures env.refreshTokenExpire.None? ==> days == 1200
    ensures env.refreshTokenExpire.Some? ==> days == env.refreshTokenExpire.value
  {
    env.refreshTokenExpire.GetOr(DefaultRefreshExpire)
  }

  /** `accessTokenOptions`: the lifetime read as minutes. Only these options
      gain `secure: true`, and only in production. */
  function AccessTokenOptions(env: TokenEnv, loadTime: int): (o: CookieOptions)
    ensures o.maxAge == AccessTokenExpire(env) * 60 * 1000
    ensures o.expires == loadTime + o.maxAge
    ensures o.httpOnly && o.sameSite == Lax
    ensures o.secure == (if env.production then Some(true) else None)
  {
    var maxAge := AccessTokenExpire(env) * MsPerMinute;
    CookieOptions(loadTime + maxAge, maxAge, true, Lax, if env.production then Some(true) else None)
  }

  /** `refreshTokenOptions`: the lifetime read as days; never `secure`. */
  function RefreshTokenOptions(env: TokenEnv, loadTime: int): (o: CookieOptions)
    ensures o.maxAge == RefreshTokenExpire(env) * 24 * 3600 * 1000
    ensures o.expires == loadTime + o.maxAge
    ensures o.httpOnly && o.sameSite == Lax
    ensures o.secure.None?
  {
    var maxAge := RefreshTokenExpire(env) * MsPerDay;
    CookieOptions(loadTime + maxAge, maxAge, true, Lax, None)
  }

  /** The refresh cookie outlives the access cookie exactly when the refresh
      lifetime, in minutes, exceeds the access lifetime. */
  lemma RefreshOutlivesAccessIff(env: TokenEnv, loadTime: int)
    ensures RefreshTokenOptions(env, loadTime).maxAge > AccessTokenOptions(env, loadTime).maxAge
        <==> RefreshTokenExpire(env) * 1440 > AccessTokenExpire(env)
  {
    var a := AccessTokenExpire(env);
    var r := RefreshTokenExpire(env);
    assert AccessTokenOptions(env, loadTime).maxAge == a * 60000;
    assert RefreshTokenOptions(env, loadTime).maxAge == (r * 1440) * 60000;
  }

  /** With both variables unset the access cookie lives 300 minutes and the
      refresh cookie 1200 days, so the refresh cookie lives longer. */
  lemma DefaultsOrderLifetimes(production: bool, loadTime: int)
    ensures var env := TokenEnv(None, None, production);
      && AccessTokenOptions(env, loadTime).maxAge == 18000000
      && RefreshTokenOptions(env, loadTime).maxAge == 103680000000
      && RefreshTokenOptions(env, loadTime).maxAge > AccessTokenOptions(env, loadTime).maxAge
  {
  }

  /** The two option records differ in `maxAge`, `expires` and `secure` only. */
  lemma OptionsDifferOnlyInLifetimeAndSecure(env: TokenEnv, loadTime: int)
    ensures var a := AccessTokenOptions(env, loadTime);
      var r := RefreshTokenOptions(env, loadTime);
      a.(maxAge := r.maxAge, expires := r.expires, secure := None) == r
  {
  }
}

=== FILE: user_controller.dfy ===
/** The account handlers of `controllers/user-controller.ts`: registration,
    activation, login and logout, each a transition over the collections.

    `generateToken` (called on activation) and `sendToken` (called on login)
    are imported by the controller but are not defined in
    `utils/generate-token.ts`, and are not part of this model: the model
    takes them to return normally, and leaves out the cookies and the
    session they would write. A database call that fails is not modelled. */
module UserController {
  import opened Common
  import opened Crypto
  import opened Jwt
  import opened UserSchema
  import opened Store
  import VerificationToken

  const DuplicateEmail := "User already exists with this email address"
  const InvalidActivationCode := "Invalid Activation Code"
  const UserNotFound := "User not found"
  const MissingCredentials := "Please provide email and password"
  const InvalidCredentials := "Invalid Credentials"
  const NotVerified := "Please verify your account"
  const LoggedOut := "Logged out successfully"
  const VerifySubject := "Verify your account"

  /** `UserModel.findOne({ email })`. A defined address finds the first user
      holding it. An undefined address leaves the filter constraining
      nothing, so the result is whichever document the database picks,
      given as `unfiltered`; `None` there is the reading in which such a
      query matches no one. */
  function FindByEmail(users: seq<User>, email: Option<string>, unfiltered: Option<nat>): (r: Option<nat>)
    ensures r.Some? ==> r.value < |users|
    ensures email.Some? && r.Some? ==>
      && users[r.value].email == email.value
      && forall k :: 0 <= k < r.value ==> users[k].email != email.value
    ensures email.Some? && r.None? ==> forall k :: 0 <= k < |users| ==> users[k].email != email.value
    ensures email.None? ==> (r.Some? <==> unfiltered.Some? && unfiltered.value < |users|)
    ensures email.None? && r.Some? ==> r == unfiltered
  {
    match email
    case None => UserAt(users, unfiltered)
    case Some(e) => FirstWithEmail(users, e, 0)
  }

  /** The first position at or after `from` holding address `e`. */
  function FirstWithEmail(users: seq<User>, e: string, from: nat): (r: Option<nat>)
    requires from <= |users|
    requires forall k :: 0 <= k < from ==> users[k].email != e
    ensures r.Some? ==>
      && from <= r.value < |users|
      && users[r.value].email == e
      && forall k :: 0 <= k < r.value ==> users[k].email != e
    ensures r.None? ==> forall k :: 0 <= k < |users| ==> users[k].email != e
    decreases |users| - from
  {
    if from == |users| then None
    else if users[from].email == e then Some(from)
    else FirstWithEmail(users, e, from + 1)
  }

  /** True when the two stores differ at most in their users. */
  predicate OnlyUsersDiffer(a: Store, b: Store) {
    a.courses == b.courses && a.orders == b.orders && a.notifications == b.notifications && a.layouts == b.layouts
  }

  // ---------------------------------------------------------------- register

  datatype RegisterRequest = RegisterRequest(name: Option<string>, email: Option<string>, password: Option<string>)

  /** Whether the mail collaborator's promise resolved or rejected. */
  datatype MailResult = Delivered | MailFailed(message: string)

  /** The message handed to the mail collaborator. */
  datatype Mail = Mail(to: string, subject: string, verificationCode: string)

  datatype RegisterBody = RegisterBody(message: string, verificationToken: Token)

  /** A registration's effect, with the mail it handed over, if any. */
  datatype Registration = Registration(store: Store, reply: Reply<RegisterBody>, mailed: Option<Mail>)

  /** What a registration takes from outside the request: the bcrypt salt,
      the random draw of the code, `JWT_SECRET`, the clock (seconds), the
      mail collaborator's result, and the document the database returns for
      a lookup by an undefined address. */
  datatype RegisterEnv = RegisterEnv(
    salt: nat,
    draw: VerificationToken.Draw,
    jwtSecret: Option<string>,
    now: int,
    mail: MailResult,
    unfiltered: Option<nat>)

  /** `registerUser`. The user is created before the code is minted and
      mailed, so a failure after creation leaves the user stored. */
  function Register(store: Store, req: RegisterRequest, env: RegisterEnv): (r: Registration)
    ensures OnlyUsersDiffer(store, r.store)
    ensures |store.users| <= |r.store.users| <= |store.users| + 1
    ensures r.store.users[..|store.users|] == store.users
    ensures |r.store.users| > |store.users| ==>
      var u := r.store.users[|store.users|];
      && !u.isVerified
      && Some(u.email) == req.email
      && req.password.Some? && Compare(req.password.value, u.password)
    ensures |r.store.users| > |store.users| <==>
      FindByEmail(store.users, req.email, env.unfiltered).None? && Create(NewUser(req.name, req.email, req.password), env.salt).Ok?
    ensures r.reply.Respond? <==>
      && FindByEmail(store.users, req.email, env.unfiltered).None?
      && Create(NewUser(req.name, req.email, req.password), env.salt).Ok?
      && Truthy(env.jwtSecret)
      && env.mail.Delivered?
    ensures r.reply.Respond? ==>
      && r.reply.status == 201
      && r.reply.body.message == "Please check your email: " + req.email.value + " to activate your account"
      && r.mailed.Some?
    ensures r.reply.Fail? ==> r.reply.error.status == 400
    ensures FindByEmail(store.users, req.email, env.unfiltered).Some? ==> r == Registration(store, Failure(400, DuplicateEmail), None)
    ensures var created := Create(NewUser(req.name, req.email, req.password), env.salt);
      FindByEmail(store.users, req.email, env.unfiltered).None? && created.Err? ==>
        r == Registration(store, Failure(400, created.error), None)
    ensures var created := Create(NewUser(req.name, req.email, req.password), env.salt);
      FindByEmail(store.users, req.email, env.unfiltered).None? && created.Ok? && !Truthy(env.jwtSecret) ==>
        r.reply == Failure(400, NoSigningKey) && r.mailed.None?
    ensures var created := Create(NewUser(req.name, req.email, req.password), env.salt);
      FindByEmail(store.users, req.email, env.unfiltered).None? && created.Ok? && Truthy(env.jwtSecret) && env.mail.MailFailed? ==>
        r.reply == Failure(400, env.mail.message) && r.mailed.Some?
  {
    var existing := FindByEmail(store.users, req.email, env.unfiltered);
    if existing.Some? then
      Registration(store, Failure(400, DuplicateEmail), None)
    else Enrol(store, req, env)
  }

  /** `registerUser` for an address nobody holds: create the user, then mint
      and mail the code. A failure after creation leaves the user stored. */
  function Enrol(store: Store, req: RegisterRequest, env: RegisterEnv): (r: Registration)
    ensures OnlyUsersDiffer(store, r.store)
    ensures |store.users| <= |r.store.users| <= |store.users| + 1
    ensures r.store.users[..|store.users|] == store.users
    ensures |r.store.users| > |store.users| ==>
      var u := r.store.users[|store.users|];
      && !u.isVerified
      && Some(u.email) == req.email
      && req.password.Some? && Compare(req.password.value, u.password)
    ensures |r.store.users| > |store.users| <==> Create(NewUser(req.name, req.email, req.password), env.salt).Ok?
    ensures r.reply.Respond? <==>
      Create(NewUser(req.name, req.email, req.password), env.salt).Ok? && Truthy(env.jwtSecret) && env.mail.Delivered?
    ensures r.reply.Respond? ==>
      && r.reply.status == 201
      && r.reply.body.message == "Please check your email: " + req.email.value + " to activate your account"
      && r.mailed.Some?
    ensures r.reply.Fail? ==> r.reply.error.status == 400
    ensures var created := Create(NewUser(req.name, req.email, req.password), env.salt);
      created.Err? ==> r == Registration(store, Failure(400, created.error), None)
    ensures var created := Create(NewUser(req.name, req.email, req.password), env.salt);
      created.Ok? && !Truthy(env.jwtSecret) ==> r.reply == Failure(400, NoSigningKey) && r.mailed.None?
    ensures var created := Create(NewUser(req.name, req.email, req.password), env.salt);
      created.Ok? && Truthy(env.jwtSecret) && env.mail.MailFailed? ==>
        r.reply == Failure(400, env.mail.message) && r.mailed.Some?
  {
    match Create(NewUser(req.name, req.email, req.password), env.salt)
    case Err(message) => Registration(store, Failure(400, message), None)
    case Ok(user) => Announce(store.(users := store.users + [user]), user, |store.users|, env)
  }

  /** `registerUser` once the user `user` is stored as `id` in `created`:
      mint the code, mail it and answer. Nothing is stored from here on, and
      each step that fails is answered with 400. */
  function Announce(created: Store, user: User, id: nat, env: RegisterEnv): (r: Registration)
    ensures r.store == created
    ensures r.reply.Respond? <==> Truthy(env.jwtSecret) && env.mail.Delivered?
    ensures r.reply.Respond? ==>
      && r.reply.status == 201
      && r.reply.body.message == "Please check your email: " + user.email + " to activate your account"
      && r.mailed.Some? && r.mailed.value.to == user.email && r.mailed.value.subject == VerifySubject
    ensures r.reply.Fail? ==> r.reply.error.status == 400
    ensures !Truthy(env.jwtSecret) ==> r.reply == Failure(400, NoSigningKey) && r.mailed.None?
    ensures Truthy(env.jwtSecret) && env.mail.MailFailed? ==> r.reply == Failure(400, env.mail.message) && r.mailed.Some?
  {
    // the controller also passes the address; the helper ignores it
    match VerificationToken.GenerateVerificationToken(id, env.draw, env.jwtSecret, env.now)
    case Err(message) => Registration(created, Failure(400, message), None)
    case Ok(issued) =>
      var mail := Mail(user.email, VerifySubject, issued.verificationCode);
      match env.mail
      case MailFailed(message) => Registration(created, Failure(400, message), Some(mail))
      case Delivered =>
        var message := "Please check your email: " + user.email + " to activate your account";
        Registration(created, Respond(201, RegisterBody(message, issued.token)), Some(mail))
  }

  /** An address already registered is refused with 400 and nothing is
      stored or mailed. */
  lemma RegisterDuplicateEmail(store: Store, req: RegisterRequest, env: RegisterEnv)
    requires exists k :: 0 <= k < |store.users| && Some(store.users[k].email) == req.email
    ensures Register(store, req, env) == Registration(store, Failure(400, DuplicateEmail), None)
  {
  }

  /** A successful registration stores exactly one new, unverified user with
      the given address, mails it the code, and answers with the signed
      token rather than the code: the token carries the mailed code and the
      new user's id, and no address. */
  lemma RegisterSuccess(store: Store, req: RegisterRequest, env: RegisterEnv, later: int)
    requires Register(store, req, env).reply.Respond?
    requires env.now <= later < env.now + VerificationToken.ExpiresIn
    ensures var r := Register(store, req, env);
      && |r.store.users| == |store.users| + 1
      && r.store.users[..|store.users|] == store.users
      && !r.store.users[|store.users|].isVerified
      && r.mailed.value.to == req.email.value
      && Verify(Signed(r.reply.body.verificationToken), env.jwtSecret, later)
           == Ok(Payload(None, Some(|store.users|), None, Some(r.mailed.value.verificationCode)))
  {
  }

  /** When the mail collaborator fails, the client sees 400 with its message
      although the user has been stored. */
  lemma RegisterMailFailureKeepsUser(store: Store, req: RegisterRequest, env: RegisterEnv)
    requires FindByEmail(store.users, req.email, env.unfiltered).None?
    requires Create(NewUser(req.name, req.email, req.password), env.salt).Ok?
    requires Truthy(env.jwtSecret)
    requires env.mail.MailFailed?
    ensures var r := Register(store, req, env);
      && r.reply == Failure(400, env.mail.message)
      && r.store.users == store.users + [Create(NewUser(req.name, req.email, req.password), env.salt).value]
  {
  }

  /** After a registration that stored a user, registering the same address
      again is refused, and exactly one user holds that address. */
  lemma RegisterSameEmailTwice(store: Store, req1: RegisterRequest, req2: RegisterRequest, env1: RegisterEnv, env2: RegisterEnv)
    requires |Register(store, req1, env1).store.users| > |store.users|
    requires req2.email == req1.email
    ensures var first := Register(store, req1, env1).store;
      && Register(first, req2, env2) == Registration(first, Failure(400, DuplicateEmail), None)
      && forall k :: 0 <= k < |first.users| && Some(first.users[k].email) == req1.email ==> k == |store.users|
  {
    var first := Register(store, req1, env1).store;
    assert first.users[|store.users|].email == req1.email.value;
    assert FindByEmail(first.users, req2.email, env2.unfiltered).Some?;
  }

  /** A request without an address looks up with a filter that constrains
      nothing: when that returns a stored user the request is refused as a
      duplicate, and otherwise creation fails validation. Either way nothing
      is stored or mailed and the failure is 400. */
  lemma RegisterWithoutEmail(store: Store, req: RegisterRequest, env: RegisterEnv)
    requires req.email.None?
    ensures var r := Register(store, req, env);
      && r.store == store && r.mailed.None? && r.reply.Fail? && r.reply.error.status == 400
      && (UserAt(store.users, env.unfiltered).Some? ==> r.reply == Failure(400, DuplicateEmail))
  {
  }

  // ---------------------------------------------------------------- activate

  datatype ActivationRequest = ActivationRequest(verificationToken: TokenText, verificationCode: Option<string>)

  datatype ActivatedBody = ActivatedBody(id: nat, name: string, email: string)

  /** `activateUser` at time `now` (seconds). The address is read from the
      token's payload, where the token helper as written never puts one;
      `unfiltered` is what the lookup by an undefined address returns. */
  function Activate(store: Store, req: ActivationRequest, jwtSecret: Option<string>, now: int, unfiltered: Option<nat>): (r: Outcome<ActivatedBody>)
    ensures OnlyUsersDiffer(store, r.store)
    ensures r.reply.Fail? ==> r.store == store
    ensures Verify(req.verificationToken, jwtSecret, now).Err? ==>
      r == Outcome(store, Failure(400, Verify(req.verificationToken, jwtSecret, now).error))
    ensures r.reply.Respond? <==>
      var claims := Verify(req.verificationToken, jwtSecret, now);
      && claims.Ok?
      && claims.value.verificationCode == req.verificationCode
      && FindByEmail(store.users, claims.value.email, unfiltered).Some?
    ensures var claims := Verify(req.verificationToken, jwtSecret, now);
      claims.Ok? && claims.value.verificationCode != req.verificationCode ==>
        r == Outcome(store, Failure(400, InvalidActivationCode))
    ensures var claims := Verify(req.verificationToken, jwtSecret, now);
      claims.Ok? && claims.value.verificationCode == req.verificationCode && FindByEmail(store.users, claims.value.email, unfiltered).None? ==>
        r == Outcome(store, Failure(404, UserNotFound))
    ensures r.reply.Respond? ==>
      r.reply.body.id == FindByEmail(store.users, Verify(req.verificationToken, jwtSecret, now).value.email, unfiltered).value
    ensures r.reply.Respond? ==>
      var id := r.reply.body.id;
      && r.reply.status == 201
      && id < |store.users|
      && r.store.users == store.users[id := store.users[id].(isVerified := true)]
      && r.reply.body == ActivatedBody(id, store.users[id].name, store.users[id].email)
  {
    match Verify(req.verificationToken, jwtSecret, now)
    case Err(message) => Outcome(store, Failure(400, message))
    case Ok(claims) =>
      if claims.verificationCode != req.verificationCode then
        Outcome(store, Failure(400, InvalidActivationCode))
      else match FindByEmail(store.users, claims.email, unfiltered)
        case None => Outcome(store, Failure(404, UserNotFound))
        case Some(id) =>
          // `findOne` leaves out the password (`select: false`), so the
          // password is neither modified nor written back by this save
          var user := PreSaveIntended(store.users[id].(isVerified := true), false, 0);
          Outcome(store.(users := store.users[id := user]), Respond(201, ActivatedBody(id, user.name, user.email)))
  }

  /** A code that differs from the token's embedded code is refused with 400
      and changes nothing. */
  lemma ActivateWrongCode(store: Store, req: ActivationRequest, jwtSecret: Option<string>, now: int, unfiltered: Option<nat>)
    requires Verify(req.verificationToken, jwtSecret, now).Ok?
    requires Verify(req.verificationToken, jwtSecret, now).value.verificationCode != req.verificationCode
    ensures Activate(store, req, jwtSecret, now, unfiltered) == Outcome(store, Failure(400, InvalidActivationCode))
  {
  }

  /** A token signed under another secret, or one past its expiry, is
      refused with 400 and the library's message, whatever the code. */
  lemma ActivateBadToken(store: Store, req: ActivationRequest, jwtSecret: Option<string>, now: int, unfiltered: Option<nat>)
    requires req.verificationToken.Signed? && Truthy(jwtSecret)
    requires req.verificationToken.token.secret != jwtSecret.value || ExpiredAt(req.verificationToken.token, now)
    ensures Activate(store, req, jwtSecret, now, unfiltered) == Outcome(store, Failure(400,
      if req.verificationToken.token.secret != jwtSecret.value then BadSignature else ExpiredToken))
  {
  }

  /** A matching code on a token that names a stored address verifies the
      first user with that address and no other. */
  lemma ActivateMatchingCode(store: Store, req: ActivationRequest, jwtSecret: Option<string>, now: int, unfiltered: Option<nat>, id: nat)
    requires Verify(req.verificationToken, jwtSecret, now).Ok?
    requires Verify(req.verificationToken, jwtSecret, now).value.verificationCode == req.verificationCode
    requires FindByEmail(store.users, Verify(req.verificationToken, jwtSecret, now).value.email, unfiltered) == Some(id)
    ensures var r := Activate(store, req, jwtSecret, now, unfiltered);
      && r.reply.Respond?
      && r.store.users[id].isVerified
      && forall k :: 0 <= k < |store.users| && k != id ==> r.store.users[k] == store.users[k]
  {
  }

  /** Activation is idempotent: repeating the same request leaves the store
      as the first call left it, and an already verified user stays verified. */
  lemma ActivateIdempotent(store: Store, req: ActivationRequest, jwtSecret: Option<string>, now: int, unfiltered: Option<nat>)
    ensures var once := Activate(store, req, jwtSecret, now, unfiltered);
      Activate(once.store, req, jwtSecret, now, unfiltered).store == once.store
  {
    var once := Activate(store, req, jwtSecret, now, unfiltered);
    if once.reply.Respond? {
      var claims := Verify(req.verificationToken, jwtSecret, now).value;
      var id := once.reply.body.id;
      assert FindByEmail(store.users, claims.email, unfiltered) == Some(id);
      assert forall k :: 0 <= k < |store.users| ==> once.store.users[k].email == store.users[k].email;
      assert FindByEmail(once.store.users, claims.email, unfiltered) == Some(id);
    }
  }

  /** The request that replays a registration's token with the mailed code. */
  function Replay(reg: Registration): ActivationRequest
    requires reg.reply.Respond? && reg.mailed.Some?
  {
    ActivationRequest(Signed(reg.reply.body.verificationToken), Some(reg.mailed.value.verificationCode))
  }

  /** The token a registration hands out holds no address, so replaying it
      with the mailed code within its five minutes activates exactly the
      user the unconstrained lookup returns, and nobody when it returns
      none; afterwards the token has expired. */
  lemma GeneratedTokenActivatesUnfiltered(store: Store, req: RegisterRequest, env: RegisterEnv, unfiltered: Option<nat>, later: int)
    requires Register(store, req, env).reply.Respond?
    requires env.now <= later
    ensures var reg := Register(store, req, env);
      var r := Activate(reg.store, Replay(reg), env.jwtSecret, later, unfiltered);
      var hit := UserAt(reg.store.users, unfiltered);
      && (later >= env.now + VerificationToken.ExpiresIn ==> r == Outcome(reg.store, Failure(400, ExpiredToken)))
      && (later < env.now + VerificationToken.ExpiresIn && hit.None? ==>
            r == Outcome(reg.store, Failure(404, UserNotFound)))
      && (later < env.now + VerificationToken.ExpiresIn && hit.Some? ==>
            && r.reply == Respond(201, ActivatedBody(hit.value, reg.store.users[hit.value].name, reg.store.users[hit.value].email))
            && r.store.users == reg.store.users[hit.value := reg.store.users[hit.value].(isVerified := true)])
  {
  }

  /** When the unconstrained lookup returns the first stored document, as a
      query with no condition does, replaying a registration's token on a
      store that already held a user activates that earlier user, replies
      with that user's name and address, and leaves the new user unverified. */
  lemma GeneratedTokenActivatesFirstUser(store: Store, req: RegisterRequest, env: RegisterEnv, later: int)
    requires Register(store, req, env).reply.Respond?
    requires |store.users| > 0
    requires env.now <= later < env.now + VerificationToken.ExpiresIn
    ensures var reg := Register(store, req, env);
      var r := Activate(reg.store, Replay(reg), env.jwtSecret, later, Some(0));
      && r.reply == Respond(201, ActivatedBody(0, store.users[0].name, store.users[0].email))
      && store.users[0].email != req.email.value
      && r.store.users[0].isVerified
      && !r.store.users[|store.users|].isVerified
  {
    var reg := Register(store, req, env);
    assert reg.store.users[0] == store.users[0];
  }

  /** With the corrected helper, whose token carries the address, replaying
      the token with the mailed code within five minutes activates exactly
      the user just registered, whatever the unconstrained lookup returns. */
  lemma IntendedTokenActivatesRegistrant(store: Store, req: RegisterRequest, env: RegisterEnv, unfiltered: Option<nat>, later: int)
    requires Register(store, req, env).reply.Respond?
    requires env.now <= later < env.now + VerificationToken.ExpiresIn
    ensures var reg := Register(store, req, env);
      var issued := VerificationToken.GenerateVerificationTokenWithEmail(|store.users|, req.email.value, env.draw, env.jwtSecret, env.now);
      && issued.Ok?
      && issued.value.verificationCode == reg.mailed.value.verificationCode
      && var act := ActivationRequest(Signed(issued.value.token), Some(issued.value.verificationCode));
      && var r := Activate(reg.store, act, env.jwtSecret, later, unfiltered);
      && r.reply.Respond?
      && r.reply.body.id == |store.users|
      && r.store.users == reg.store.users[|store.users| := reg.store.users[|store.users|].(isVerified := true)]
  {
    var reg := Register(store, req, env);
    assert reg.store.users[|store.users|].email == req.email.value;
    assert FindByEmail(reg.store.users, req.email, unfiltered) == Some(|store.users|);
  }

  // ------------------------------------------------------------------- login

  datatype LoginRequest = LoginRequest(email: Option<string>, password: Option<string>)

  /** The user `sendToken` is called with. */
  datatype LoginBody = LoginBody(id: nat)

  /** `loginUser`. Unknown address and wrong password give the same error;
      the verified flag is consulted only after the password matched. The
      lookup runs only on a non-empty address, so no unconstrained pick is
      needed. */
  function Login(store: Store, req: LoginRequest): (r: Outcome<LoginBody>)
    ensures r.store == store
    ensures r.reply.Respond? ==>
      var id := r.reply.body.id;
      && r.reply.status == 200
      && id < |store.users|
      && Some(store.users[id].email) == req.email
      && req.password.Some? && ComparePassword(store.users[id], req.password.value)
      && store.users[id].isVerified
    ensures r.reply.Respond? <==>
      var found := FindByEmail(store.users, req.email, None);
      && Truthy(req.email) && Truthy(req.password)
      && found.Some?
      && ComparePassword(store.users[found.value], req.password.value)
      && store.users[found.value].isVerified
    ensures r.reply.Respond? ==> Some(r.reply.body.id) == FindByEmail(store.users, req.email, None)
    ensures r.reply.Fail? ==> r.reply.error.status == 401
  {
    if !Truthy(req.email) || !Truthy(req.password) then
      Outcome(store, Failure(401, MissingCredentials))
    else match FindByEmail(store.users, req.email, None)
      case None => Outcome(store, Failure(401, InvalidCredentials))
      case Some(id) =>
        var user := store.users[id];
        if !ComparePassword(user, req.password.value) then Outcome(store, Failure(401, InvalidCredentials))
        else if !user.isVerified then Outcome(store, Failure(401, NotVerified))
        // the second lookup, without the password, finds the same user
        else Outcome(store, Respond(200, LoginBody(id)))
  }

  /** A missing or empty field is refused before any lookup: the reply does
      not depend on the stored users. */
  lemma LoginMissingFields(s1: Store, s2: Store, req: LoginRequest)
    requires !Truthy(req.email) || !Truthy(req.password)
    ensures Login(s1, req).reply == Login(s2, req).reply == Failure(401, MissingCredentials)
  {
  }

  /** An unknown address and a wrong password are indistinguishable: both
      give 401 "Invalid Credentials". */
  lemma LoginUniformInvalidCredentials(store: Store, unknown: LoginRequest, wrong: LoginRequest)
    requires Truthy(unknown.email) && Truthy(unknown.password)
    requires FindByEmail(store.users, unknown.email, None).None?
    requires Truthy(wrong.email) && Truthy(wrong.password)
    requires FindByEmail(store.users, wrong.email, None).Some?
    requires !ComparePassword(store.users[FindByEmail(store.users, wrong.email, None).value], wrong.password.value)
    ensures Login(store, unknown).reply == Login(store, wrong).reply == Failure(401, InvalidCredentials)
  {
  }

  /** An unverified user with a wrong password is told "Invalid Credentials",
      not that the account is unverified. */
  lemma LoginUnverifiedWrongPassword(store: Store, req: LoginRequest, id: nat)
    requires Truthy(req.email) && Truthy(req.password)
    requires FindByEmail(store.users, req.email, None) == Some(id)
    requires !store.users[id].isVerified
    requires !ComparePassword(store.users[id], req.password.value)
    ensures Login(store, req).reply == Failure(401, InvalidCredentials)
  {
  }

  /** The right password of an unverified user is refused with its own
      message, distinct from the one for bad credentials. */
  lemma LoginUnverifiedRefused(store: Store, req: LoginRequest, id: nat)
    requires Truthy(req.email) && Truthy(req.password)
    requires FindByEmail(store.users, req.email, None) == Some(id)
    requires ComparePassword(store.users[id], req.password.value)
    requires !store.users[id].isVerified
    ensures Login(store, req).reply == Failure(401, NotVerified)
    ensures Login(store, req).reply != Failure(401, InvalidCredentials)
  {
  }

  /** Straight after registering, logging in with the registered password
      is refused as unverified. */
  lemma LoginBeforeActivation(store: Store, req: RegisterRequest, env: RegisterEnv)
    requires Register(store, req, env).reply.Respond?
    ensures Login(Register(store, req, env).store, LoginRequest(req.email, req.password)).reply == Failure(401, NotVerified)
  {
    var users := Register(store, req, env).store.users;
    assert FindByEmail(store.users, req.email, env.unfiltered).None?;
    assert users[|store.users|].email == req.email.value;
    assert FindByEmail(users, req.email, None) == Some(|store.users|);
  }

  // ------------------------------------------------------------------ logout

  datatype Cookie = Cookie(name: string, value: string, maxAge: nat)

  datatype LogoutBody = LogoutBody(cookies: seq<Cookie>, message: string)

  /** `logoutUser`: overwrites the three cookies and always succeeds. */
  function Logout(store: Store): (r: Outcome<LogoutBody>)
    ensures r.store == store
    ensures r.reply.Respond? && r.reply.status == 200 && r.reply.body.message == LoggedOut
    ensures forall name :: name in {"jwt", "access_token", "refresh_token"} ==> Cookie(name, "", 1) in r.reply.body.cookies
    ensures forall c :: c in r.reply.body.cookies ==> c.value == "" && c.maxAge == 1
  {
    var cleared := [Cookie("jwt", "", 1), Cookie("access_token", "", 1), Cookie("refresh_token", "", 1)];
    Outcome(store, Respond(200, LogoutBody(cleared, LoggedOut)))
  }
}

=== FILE: user_model.dfy ===
/** The user schema of `models/user-model.ts`: fields and defaults, the
    validators `create` runs, the pre-save hashing hook, and the instance
    methods `comparePassword`, `signAccessToken` and `signRefreshToken`. */
module UserSchema {
  import opened Common
  import opened Crypto
  import EmailPattern
  import Jwt

  const DefaultRole := "User"
  const MinPasswordLength := 6

  /** A stored user document. `courses` holds the ids of purchased courses. */
  datatype User = User(
    name: string,
    email: string,
    password: Password,
    avatar: Option<Asset>,
    role: string,
    isVerified: bool,
    courses: seq<nat>)

  /** The fields handed to `UserModel.create`, each possibly undefined. */
  datatype NewUser = NewUser(name: Option<string>, email: Option<string>, password: Option<string>)

  /** A failed validator: the schema path and the validator's message. */
  datatype FieldError = FieldError(path: string, message: string)

  const NameRequired := "Please enter your name"
  const EmailRequired := "Please enter your email"
  const EmailInvalid := "Please enter a valid email"
  const PasswordRequired := "Please enter your password"
  const PasswordTooShort := "Password must be at least 6 characters long"

  /** The validators of one path run in order `required`, then the others;
      the first failure is the path's error. */
  function NameError(v: Option<string>): Option<string> {
    if !Truthy(v) then Some(NameRequired) else None
  }

  function EmailError(v: Option<string>): Option<string> {
    if !Truthy(v) then Some(EmailRequired)
    else if !EmailPattern.Test(v.value) then Some(EmailInvalid)
    else None
  }

  function PasswordError(v: Option<string>): Option<string> {
    if !Truthy(v) then Some(PasswordRequired)
    else if Utf16Length(v.value) < MinPasswordLength then Some(PasswordTooShort)
    else None
  }

  /** A character outside the Basic Multilingual Plane, which a JavaScript
      string stores as two UTF-16 code units. */
  predicate IsAstral(c: char) {
    c as int >= 0x1_0000
  }

  /** The JavaScript `length` of a string, in UTF-16 code units, which is
      what `minlength` compares. It lies between the number of characters
      and twice that, and equals the number of characters exactly when no
      character is astral. */
  function Utf16Length(s: string): (n: nat)
    ensures |s| <= n <= 2 * |s|
    ensures n == |s| <==> forall k :: 0 <= k < |s| ==> !IsAstral(s[k])
    decreases |s|
  {
    if |s| == 0 then 0
    else
      var rest := Utf16Length(s[1..]);
      assert forall k :: 1 <= k < |s| ==> s[1..][k - 1] == s[k];
      (if IsAstral(s[0]) then 2 else 1) + rest
  }

  function ErrorsOf(path: string, e: Option<string>): seq<FieldError> {
    match e
    case Some(m) => [FieldError(path, m)]
    case None => []
  }

  /** The failed validators, in schema order. */
  function ValidationErrors(d: NewUser): seq<FieldError> {
    ErrorsOf("name", NameError(d.name))
      + ErrorsOf("email", EmailError(d.email))
      + ErrorsOf("password", PasswordError(d.password))
  }

  function JoinErrors(errors: seq<FieldError>): string {
    if |errors| == 0 then ""
    else if |errors| == 1 then errors[0].path + ": " + errors[0].message
    else errors[0].path + ": " + errors[0].message + ", " + JoinErrors(errors[1..])
  }

  /** The message of the validation error `create` throws. */
  function ValidationMessage(errors: seq<FieldError>): string {
    "User validation failed: " + JoinErrors(errors)
  }

  /** The pre-save hook AS WRITTEN, as the document it leaves behind.
      `next()` inside the `isModified` test is not followed by `return`, so
      the hash runs on every save: the `passwordModified` flag has no effect
      on the result. On an unmodified password that `next()` has already
      let the save go out, so the result is what the document holds
      afterwards, not what that save writes. */
  function PreSave(u: User, passwordModified: bool, salt: nat): (r: User)
    ensures r.(password := u.password) == u
    ensures r.password != u.password
    ensures forall p :: ComparePassword(r, p) <==> u.password == Plain(p)
  {
    u.(password := Hash(u.password, salt))
  }

  /** The pre-save hook as evidently intended: hash only a modified password.
      The rest of the model saves documents through this hook. */
  function PreSaveIntended(u: User, passwordModified: bool, salt: nat): (r: User)
    ensures r.(password := u.password) == u
    ensures !passwordModified ==> r == u
    ensures forall p :: !passwordModified && ComparePassword(u, p) ==> ComparePassword(r, p)
    ensures passwordModified && u.password.Plain? ==>
      forall p :: ComparePassword(r, p) <==> p == u.password.text
  {
    if passwordModified then u.(password := Hash(u.password, salt)) else u
  }

  /** `UserModel.create({ name, email, password })`: validation, then the
      schema defaults, then the pre-save hook on a freshly set password. */
  function Create(d: NewUser, salt: nat): (r: Result<User, string>)
    ensures r.Ok? <==>
      && Truthy(d.name)
      && Truthy(d.email) && EmailPattern.Matches(d.email.value)
      && Truthy(d.password) && Utf16Length(d.password.value) >= MinPasswordLength
    ensures r.Ok? ==>
      && r.value.name == d.name.value
      && r.value.email == d.email.value
      && Compare(d.password.value, r.value.password)
      && r.value.role == DefaultRole
      && !r.value.isVerified
      && r.value.avatar.None?
      && r.value.courses == []
  {
    var errors := ValidationErrors(d);
    if errors != [] then Err(ValidationMessage(errors))
    else
      var doc := User(d.name.value, d.email.value, Plain(d.password.value), None, DefaultRole, false, []);
      Ok(PreSaveIntended(doc, true, salt))
  }

  /** `comparePassword(candidate)` on a document loaded with its password. */
  predicate ComparePassword(u: User, candidate: string)
    ensures ComparePassword(u, candidate) <==> exists salt: nat :: u.password == Digest(Plain(candidate), salt)
  {
    Compare(candidate, u.password)
  }

  /** `signAccessToken()`: `{ id }` under `ACCESS_TOKEN || ''`, no expiry. */
  function SignAccessToken(id: nat, secrets: Jwt.Secrets, now: int): (r: Result<Jwt.Token, string>)
    ensures r.Ok? <==> Truthy(secrets.accessToken)
    ensures r.Err? ==> r.error == Jwt.NoSigningKey
    ensures r.Ok? ==>
      && r.value.payload == Jwt.IdPayload(id)
      && r.value.secret == secrets.accessToken.value
      && r.value.expiresAt.None?
  {
    Jwt.Sign(Jwt.IdPayload(id), Some(secrets.accessToken.GetOr("")), None, now)
  }

  /** `signRefreshToken()`: `{ id }` under `REFRESH_TOKEN || ''`, no expiry. */
  function SignRefreshToken(id: nat, secrets: Jwt.Secrets, now: int): (r: Result<Jwt.Token, string>)
    ensures r.Ok? <==> Truthy(secrets.refreshToken)
    ensures r.Err? ==> r.error == Jwt.NoSigningKey
    ensures r.Ok? ==>
      && r.value.payload == Jwt.IdPayload(id)
      && r.value.secret == secrets.refreshToken.value
      && r.value.expiresAt.None?
  {
    Jwt.Sign(Jwt.IdPayload(id), Some(secrets.refreshToken.GetOr("")), None, now)
  }

  /** A password shorter than six UTF-16 code units is rejected, and the
      error names the password path. */
  lemma ShortPasswordRejected(d: NewUser, salt: nat)
    requires d.password.Some? && Utf16Length(d.password.value) < MinPasswordLength
    ensures Create(d, salt).Err?
    ensures FieldError("password", PasswordError(d.password).value) in ValidationErrors(d)
  {
  }

  /** Three astral characters make six code units, so such a password
      passes the minimum although it has three characters. */
  lemma AstralPasswordMeetsMinimum(d: NewUser)
    requires d.password == Some("\U{1F600}\U{1F600}\U{1F600}")
    ensures |d.password.value| == 3
    ensures Utf16Length(d.password.value) == 6
    ensures PasswordError(d.password).None?
  {
  }

  /** The hook as written hashes whether or not the password was modified,
      and always replaces the stored value by a digest of it. */
  lemma PreSaveAlwaysHashes(u: User, salt: nat)
    ensures PreSave(u, false, salt) == PreSave(u, true, salt)
    ensures PreSave(u, false, salt).password != u.password
    ensures PreSave(u, false, salt).password == Hash(u.password, salt)
    ensures PreSave(u, false, salt).(password := u.password) == u
  {
  }

  /** The defect of the hook as written: on a document whose password was
      not modified, the hook re-hashes the digest it holds, and the user's
      own password no longer matches that document; its next save stores
      the re-hashed value. */
  lemma DoubleHashBreaksLogin(u: User, p: string, salt: nat)
    requires ComparePassword(u, p)
    ensures !ComparePassword(PreSave(u, false, salt), p)
  {
  }

  /** With the intended hook, any number of saves that leave the password
      unmodified keep it matching. */
  lemma {:induction false} IntendedSavesKeepLogin(u: User, p: string, salts: seq<nat>)
    requires ComparePassword(u, p)
    ensures ComparePassword(SaveUnmodified(u, salts), p)
  {
    if |salts| > 0 {
      IntendedSavesKeepLogin(PreSaveIntended(u, false, salts[0]), p, salts[1..]);
    }
  }

  /** `u` saved once per salt in `salts`, never modifying the password. */
  function SaveUnmodified(u: User, salts: seq<nat>): User
    decreases |salts|
  {
    if |salts| == 0 then u else SaveUnmodified(PreSaveIntended(u, false, salts[0]), salts[1..])
  }

  /** A created user's own password matches it (bcrypt round trip). */
  lemma CreatedUserMatchesPassword(d: NewUser, salt: nat, candidate: string)
    requires Create(d, salt).Ok?
    ensures ComparePassword(Create(d, salt).value, candidate) <==> candidate == d.password.value
  {
  }

  /** Access and refresh tokens both carry only `{ id }`, set no expiry, and
      are signed under their own secrets: each verifies under its secret and,
      when the secrets differ, not under the other. */
  lemma TokenMethods(id: nat, secrets: Jwt.Secrets, now: int, later: int)
    requires Truthy(secrets.accessToken) && Truthy(secrets.refreshToken)
    ensures SignAccessToken(id, secrets, now).Ok? && SignRefreshToken(id, secrets, now).Ok?
    ensures SignAccessToken(id, secrets, now).value.payload == Jwt.Payload(Some(id), None, None, None)
    ensures SignRefreshToken(id, secrets, now).value.payload == Jwt.Payload(Some(id), None, None, None)
    ensures SignAccessToken(id, secrets, now).value.expiresAt.None?
    ensures SignRefreshToken(id, secrets, now).value.expiresAt.None?
    ensures Jwt.Verify(Jwt.Signed(SignAccessToken(id, secrets, now).value), secrets.accessToken, later).Ok?
    ensures Jwt.Verify(Jwt.Signed(SignRefreshToken(id, secrets, now).value), secrets.refreshToken, later).Ok?
    ensures secrets.accessToken != secrets.refreshToken ==>
      Jwt.Verify(Jwt.Signed(SignAccessToken(id, secrets, now).value), secrets.refreshToken, later).Err?
  {
  }

  /** With a secret absent, signing throws instead of signing with ''. */
  lemma TokenMethodsNeedSecrets(id: nat, secrets: Jwt.Secrets, now: int)
    requires !Truthy(secrets.accessToken)
    ensures SignAccessToken(id, secrets, now) == Err(Jwt.NoSigningKey)
  {
  }
}
